=== FILE: README.md ===
# bazel_python_venv, modelled in Dafny

`bazel_python_venv.py` builds a Python virtual environment for a Bazel
workspace. It reads the workspace layout from the output of `bazel info`.
It then symlinks every pip-installed package that Bazel fetched into the
environment's `site-packages`, and with `--lib` it also symlinks the
workspace's own libraries.

The project models the parts of that script that carry logic.

- **The `bazel info` parser** (`bazel_info.dfy`, module `BazelInfo`) is a
  pure function from text to `Result<map<string, string>, InfoError>`.
  - Lines are split on every `": "`, as `str.split` does.
  - A line that does not give exactly two parts makes `dict()` fail.
  - Duplicate keys resolve last-wins.
  - The three lookups that follow it report the first missing key.
- **Strings** (`strings.dfy`) holds Python's `str.split`, `str.join`,
  `find` and `in` over `seq<char>`, with the lemmas the parser needs.
- **The filesystem** (`filesystem.dfy`) is a map from paths (sequences of
  name components) to `Dir | File | Symlink(target)`. It also holds
  pathlib's `str(p)` and `Path(s)`.
- **`copy_to_pip`** (`pip_links.dfy`) is a guarded transition on the
  filesystem.
  - It skips reserved names, and skips directories that have a BUILD file
    unless copying from `src`.
  - Otherwise it removes the destination and creates a best-effort symlink.
  - Removing a real directory raises, and that aborts the run.
  - `LinkAll` folds `copy_to_pip` over a sequence of calls.
- **The two traversal drivers** (`walks.dfy`) are
  `link_packages_into_python_venv` and `link_libs`. Each is modelled as the
  sequence of `copy_to_pip` calls it makes on a given filesystem and
  directory listing.
- **The virtual-environment side** (`venv.dfy`):
  - the site-packages location;
  - the configuration taken from `bazel info`;
  - the alias name in `~/.virtualenvs`;
  - the linking part of `run()`: the package walk, then with `--lib` the
    library walk.
- **Error paths** (`wrappers.dfy`) use `Option` and `Result`.

Two details of the code shape the model:

- **Each line is split at every `": "`.** Line 50 calls `split(': ')`,
  which cuts at every occurrence, not only the first. A value containing
  `": "` therefore makes the whole parse raise (`ValueWithSeparatorFails`).
- **The alias is named after `execution_root`.** Line 86 takes the last
  component of `execution_root`, not of the working directory. The working
  directory enters only through the last six characters of its digest
  (line 87).

## Model

| member | source | states |
|---|---|---|
| `BazelInfo.ParseInfo` | bazel_python_venv.py:50 | Parsing succeeds exactly when every non-empty line holds exactly one `": "`. Otherwise it fails at the first line that does not, reporting that line's index and its number of parts (the ValueError of `dict`). On success the keys are exactly the keys of the lines. A key's value comes from the last line carrying that key. |
| `BazelInfo.SeparatorCount` | bazel_python_venv.py:50 | `line.split(': ')` has one more part than the line has `": "` separators: every occurrence cuts, not just the first. |
| `BazelInfo.LineRoundTrip` | bazel_python_venv.py:50 | `key: value` with no separator inside the key or the value splits into exactly `[key, value]`. |
| `BazelInfo.LineShape` | bazel_python_venv.py:50 | Conversely, a line with exactly one `": "` is its key, the separator and its value, and neither part holds a separator. |
| `BazelInfo.ParseFormat` | bazel_python_venv.py:50 | Parsing inverts printing. Output printed from pairs without newlines or separators inside them parses to `dict(pairs)`, and a final newline changes nothing. |
| `BazelInfo.LastLineWins` | bazel_python_venv.py:50 | Among duplicate keys the later line wins, and every earlier key stays in the map. |
| `BazelInfo.TrailingNewline` | bazel_python_venv.py:50 | The empty string after a trailing newline is dropped, so neither the lines nor the parse result change. |
| `BazelInfo.ValueWithSeparatorFails` | bazel_python_venv.py:50 | A line whose value itself contains `": "` makes the whole parse fail. |
| `BazelInfo.GetBazelConf` | bazel_python_venv.py:53-56 | Reading `output_base`, `execution_root` and `workspace` succeeds exactly when all three are present, returning their values. Otherwise it raises the KeyError of the first one missing, in that order. A parse failure passes through unchanged. |
| `BazelInfo.ConfFromInfo` | bazel_python_venv.py:50-56 | Wherever `output_base`, `execution_root` and `workspace` are printed, in any order and among any other keys, the configuration holds the value of the last line printed for each. |
| `BazelInfo.ConfMissingKey` | bazel_python_venv.py:50-56 | Printed output that lacks one of the three keys but has every key looked up before it raises the KeyError of exactly that key. |
| `Strings.Split` | bazel_python_venv.py:50 | `str.split` with a non-empty separator: at least one part, the parts join back to the input, and no part contains the separator. |
| `Strings.SplitJoin` | bazel_python_venv.py:50 | Splitting on a one-character separator undoes joining parts that do not contain it. |
| `FileSystem.PathStringRoundTrip` | bazel_python_venv.py:54-57 | `Path(str(p)) == p` for every absolute path made of proper names. |
| `Venv.ConfigOfPaths` | bazel_python_venv.py:54-57 | The package walk starts at `output_base/external`, the library walk at `execution_root/python/libraries`, and the project name is the last component of `execution_root`. |
| `Venv.Last6` | bazel_python_venv.py:87 | `digest[-6:]` is the last six characters of the digest, or all of it when shorter. |
| `Venv.AliasNameInjective` | bazel_python_venv.py:85-88 | For full digests, two alias names are equal exactly when the project names and the last six digest characters are. |
| `Venv.AliasPath` | bazel_python_venv.py:82-88 | The alias lies directly in `<home>/.virtualenvs`, and its name is the project name, a dash, and the tail of the digest of the working directory's path string. |
| `Venv.AliasPathInjective` | bazel_python_venv.py:82-88 | Two working directories share an alias exactly when their projects have the same name and their digests end in the same six characters. |
| `PipLinks.CopyToPip` | bazel_python_venv.py:97-111 | A reserved name, or a BUILD file without `copy_from_src`, leaves the filesystem as it is. Otherwise a real directory at the destination raises IsADirectory. In every other case only the destination changes: it becomes a symlink to the directory when its parent is a directory, and is removed otherwise. |
| `PipLinks.CopyToPipIdempotent` | bazel_python_venv.py:106-109 | Applying `copy_to_pip` twice with the same arguments gives the state of applying it once. |
| `PipLinks.CopyToPipKeepsWellFormed` | bazel_python_venv.py:103-111 | A real filesystem stays real: every entry still sits in a directory. |
| `PipLinks.LinkAllOutcome` | bazel_python_venv.py:97-111 | A sequence of calls raises exactly when some unguarded call finds a real directory at its destination. The first such call raises. Otherwise every destination holds the link of the last call that targets it, and nothing else changes. |
| `PipLinks.OnDisk` | bazel_python_venv.py:103-111 | The state left on disk: when no call raises, it is the fold's result. |
| `PipLinks.OnDiskAtFirstHit` | bazel_python_venv.py:106-107 | When call `i` is the first to find a real directory, the fold raises, and the disk keeps exactly the state the calls before `i` produced. The raising `os.remove` changes nothing. |
| `PipLinks.OnDiskLinked` | bazel_python_venv.py:103-111 | After an aborted fold, each destination of the calls before the first hit holds the link of the last of them that targets it, and nothing else has changed. |
| `PipLinks.LinkAllFrame` | bazel_python_venv.py:103-111 | A path that is no call's destination keeps its entry. |
| `PipLinks.LinkAllIdempotent` | bazel_python_venv.py:106-109 | Folding the same calls over the result of a successful fold succeeds and changes nothing. |
| `PipLinks.UniqueCallLinked` | bazel_python_venv.py:103-109 | After a successful fold into an existing site-packages, an unguarded call whose directory name no other unguarded call shares leaves `site-packages/<name>` linked to its directory. |
| `PipLinks.LaterCallWins` | bazel_python_venv.py:106-109 | Of two calls for the same name into an existing site-packages, the later one's link stays when the later call passes its guards, and an existing file or link at the destination never makes either raise. |
| `Walks.PackageCalls` | bazel_python_venv.py:114-133 | Listing `output_base/external` raises exactly when it is not a directory. Otherwise the walk calls `copy_to_pip(d, False)` exactly on directories three listed levels down under a first-level directory whose path string contains `_pip_`. |
| `Walks.PackageWalkExact` | bazel_python_venv.py:114-133 | On a real, faithfully listed filesystem the package walk's calls are exactly the directories at depth three below `external` whose first-level ancestor's path string contains `_pip_`. Directories at depth one or two are never passed. |
| `Walks.LibCalls` | bazel_python_venv.py:136-148 | Listing `python/libraries` raises exactly when it is not a directory. Otherwise the walk calls `copy_to_pip(d, True)` exactly on the listed subdirectories of `libraries/<x>/src`. An `<x>` without a `src` directory gives nothing. |
| `Walks.LibraryWalkExact` | bazel_python_venv.py:136-148 | On a real, faithfully listed filesystem the library walk's calls are exactly the directories `libraries/<x>/src/<d>`. |
| `Walks.WalkDepth` | bazel_python_venv.py:128-148 | Both walks pass only directories exactly three levels below their root. |
| `Walks.WalksAreLocal` | bazel_python_venv.py:114-148 | Both walks depend only on which paths under their root are directories. |
| `Venv.LinkingKeepsWalks` | bazel_python_venv.py:114-148 | Linking into a site-packages outside a walk's root never changes that walk. So the calls the lazy generators make can be computed before any link is made. |
| `Venv.Run` | bazel_python_venv.py:182-185 | A missing `external` directory raises NotADirectory. A successful run changes nothing outside the direct children of site-packages, and keeps a real filesystem real. |
| `Venv.RunIsOneFold` | bazel_python_venv.py:182-185 | With `--lib`, the run is one fold of `copy_to_pip` over the package calls followed by the library calls, both walks taken on the starting state. |
| `Venv.RunIdempotent` | bazel_python_venv.py:182-185 | Running the linking a second time over the first run's result succeeds and changes nothing. |
| `Venv.PipPackageLinked` | bazel_python_venv.py:114-148 | After a successful run into an existing site-packages, a pip package in a `_pip_` repository with no BUILD file, an unreserved name and no other such package of the same name is linked as `site-packages/<name>`; with `--lib` this holds when no library package shares the name, since a later library link would replace it. |
| `Venv.LibraryPackageLinked` | bazel_python_venv.py:136-148 | After a successful run with `--lib`, a library package with an unreserved name that no other library package shares is linked as `site-packages/<name>`, whatever the package walk linked before. |

## Left out

- Subprocesses are not modelled:
  - `bazel info` (line 48): its decoded output is the parser's input text;
  - `python -m venv` and the `exit()` on stderr (lines 74-81);
  - `find` (line 154).
- Directory creation is not modelled: `create_path` and `os.mkdir` (lines 41-43, 47, 83-84).
- Virtual environment and alias:
  - creating the alias symlink (lines 89-93), including its `isdir` versus
    `lexists` test. Only the alias path is modelled.
  - SHA-256 (line 87) is the parameter `sha256Hex`.
- `vscode_analysis_extra_path` (lines 151-176) is JSON file I/O. Line 165
  computes `os.getcwd() / '.vscode/settings.json'`, which is `str / str` and
  raises TypeError, so `run()` without `--vscode-workspace` fails before any
  linking. `Venv.Run` models only the linking that follows a step that did
  not raise.
- `argparse`, logging and module-level globals (lines 22-38, 58-69) are
  configuration plumbing. The `--lib` flag is the parameter
  `includeLibraries`, and log calls have no effect on the filesystem.
- Symbolic links are never followed. `os.path.isdir`, `os.path.exists` and
  `os.listdir` follow them in the source. In the model:
  - a symlinked repository is not walked;
  - a BUILD entry counts as present even when it is a dangling link;
  - `isdir` of a link to a directory is false;
  - a walk root reached through a symlink is not a directory. So
    `Walks.PackageCalls` and `Walks.LibCalls` raise NotADirectory where
    `os.listdir` (lines 118 and 139) follows the link and succeeds. Bazel's
    execution root usually holds `python` as a symlink into the workspace,
    so there `link_libs` succeeds while the model raises. The model reads
    the configured roots as already-resolved paths.
- OS errors other than two are not modelled (permissions, for example). The
  two that are:
  - `os.remove` on a real directory;
  - `os.listdir` on a walk root that is not a directory.

  `os.symlink` failures are swallowed by the source, so only the
  missing-parent case is modelled.
- Directory listing order is the parameter `listdir`. The exactness lemmas
  assume it lists exactly a directory's entries.
- The drivers are lazy generators, so links are made while a walk is still
  listing. The model computes each walk on the state at its start.
  `Venv.LinkingKeepsWalks` shows this is the same when site-packages lies
  outside the walked roots. A site-packages inside `output_base/external` or
  `python/libraries` is not modelled.
- `Path(s)` is modelled for absolute path strings only. Relative strings
  from `bazel info` are read as if absolute.
- `bazel_bump_version.py` is a wrapper around `find` and an external picker.
  `setup.py` is packaging metadata. Neither is part of this model.
- Concurrent invocations are not modelled: the script is single-process.
- Venv.Run: its contract states what a run leaves untouched and its error
  for a missing `external`. The full outcome is stated by
  `PipLinks.LinkAllOutcome` together with `Venv.RunIsOneFold`.
- Venv.Run: a run that raises returns only the error, not the disk. In the
  source, the links made before the exception stay. `PipLinks.OnDiskAtFirstHit`
  and `PipLinks.OnDiskLinked` state that state for a fold of calls. This
  includes the single fold of `Venv.RunIsOneFold`. No such statement is made
  for a library listing that raises after the package walk has linked.
- Walks.PackageWalkExact, Walks.LibraryWalkExact: these assume a real
  filesystem listed faithfully. On arbitrary listings only the weaker
  membership contracts of `PackageCalls` and `LibCalls` hold.
- Venv.PipPackageLinked, Venv.LibraryPackageLinked, Venv.RunIdempotent:
  these assume site-packages lies outside the walked roots.
- Venv.PipPackageLinked: with `--lib`, a library package of the same name
  replaces the pip link, so the lemma requires that none exists; the link
  that then stays is the library's, as `Venv.LibraryPackageLinked` states.

=== FILE: bazel_info.dfy ===
/**
 * The parser for the output of `bazel info` (bazel_python_venv.py, line 50):
 *
 *   dict([i.split(': ') for i in text.split('\n') if i])
 *
 * and the three lookups that follow it (lines 53-56). Every line is split on
 * EVERY occurrence of ": ", so a value that itself contains ": " yields more
 * than two pieces and makes `dict` raise.
 */
module BazelInfo {
  import opened Wrappers
  import opened Strings

  const Newline: string := "\n"
  const ColonSpace: string := ": "

  /** What parsing or reading the configuration can raise. */
  datatype InfoError =
      /** `dict()`'s ValueError: element `index` of the split lines has `length` parts, not 2. */
    | ElementLength(index: nat, length: nat)
      /** The KeyError of a missing `bazel info` key. */
    | MissingKey(key: string)

  /** The non-empty lines of the text, in order. */
  function Lines(text: string): seq<string> {
    NonEmpty(Split(text, Newline))
  }

  /** The number of ": " separators on a line; a line parses exactly when it is 1. */
  function Separators(line: string): nat {
    CountOccurrences(line, ColonSpace)
  }

  /** The part of a line before its first ": " (the whole line when there is none). */
  function KeyOf(line: string): string {
    Split(line, ColonSpace)[0]
  }

  /** The part of a line after its ": ", for a line with exactly one separator. */
  function ValueOf(line: string): string
    requires Separators(line) == 1
  {
    SeparatorCount(line);
    Split(line, ColonSpace)[1]
  }

  /** No occurrence at all means a count of zero. */
  lemma {:induction false} CountNone(s: string, sep: string)
    requires forall j :: !Occurs(s, sep, j)
    ensures CountOccurrences(s, sep) == 0
    decreases |s|
  {
    if |s| > 0 {
      forall j | true
        ensures !Occurs(s[1..], sep, j)
      {
        assert !Occurs(s, sep, j + 1);
        if 0 <= j && j + |sep| <= |s| - 1 {
          assert s[j + 1..j + 1 + |sep|] == s[1..][j..j + |sep|];
        }
      }
      CountNone(s[1..], sep);
    }
  }

  /** Occurrences before index `i`, if there are none, contribute nothing to the count. */
  lemma {:induction false} CountSkip(s: string, sep: string, i: nat)
    requires i <= |s|
    requires forall j :: 0 <= j < i ==> !Occurs(s, sep, j)
    ensures CountOccurrences(s, sep) == CountOccurrences(s[i..], sep)
    decreases i
  {
    if i > 0 {
      assert !Occurs(s, sep, 0);
      forall j | 0 <= j < i - 1
        ensures !Occurs(s[1..], sep, j)
      {
        assert !Occurs(s, sep, j + 1);
        var t := s[1..];
        if j + |sep| <= |t| {
          assert t[j..j + |sep|] == s[j + 1..j + 1 + |sep|];
        }
      }
      CountSkip(s[1..], sep, i - 1);
      assert s[1..][i - 1..] == s[i..];
    }
  }

  /**
   * The separator ": " cannot overlap itself, so `line.split(': ')` has one
   * more part than there are occurrences of ": " in the line.
   */
  lemma {:induction false} SeparatorCount(line: string)
    ensures |Split(line, ColonSpace)| == Separators(line) + 1
    decreases |line|
  {
    var first := IndexOf(line, ColonSpace);
    if first.None? {
      CountNone(line, ColonSpace);
    } else {
      var i := first.value;
      var rest := line[i + 2..];
      SplitAtFirst(line, ColonSpace, i);
      CountSkip(line, ColonSpace, i);
      var at := line[i..];
      assert at[..2] == ColonSpace;
      assert CountOccurrences(at, ColonSpace) == 1 + CountOccurrences(at[1..], ColonSpace);
      var after := line[i + 1..];
      assert at[1..] == after;
      assert after[0] == ' ';
      assert !Occurs(after, ColonSpace, 0);
      assert after[1..] == rest;
      assert CountOccurrences(after, ColonSpace) == CountOccurrences(rest, ColonSpace);
      SeparatorCount(rest);
    }
  }

  /** A line with exactly one separator is its key, ": ", and its value, neither holding a separator. */
  lemma LineShape(line: string)
    requires Separators(line) == 1
    ensures line == KeyOf(line) + ColonSpace + ValueOf(line)
    ensures !Contains(KeyOf(line), ColonSpace) && !Contains(ValueOf(line), ColonSpace)
  {
    var parts := Split(line, ColonSpace);
    SeparatorCount(line);
    assert parts[1..] == [parts[1]];
  }

  /** Conversely, `key: value` with no separator inside key or value splits back into key and value. */
  lemma LineRoundTrip(key: string, value: string)
    requires !Contains(key, ColonSpace) && !Contains(value, ColonSpace)
    ensures Split(key + ColonSpace + value, ColonSpace) == [key, value]
    ensures Separators(key + ColonSpace + value) == 1
    ensures KeyOf(key + ColonSpace + value) == key
    ensures ValueOf(key + ColonSpace + value) == value
  {
    var line := key + ColonSpace + value;
    forall j | 0 <= j < |key|
      ensures !Occurs(line, ColonSpace, j)
    {
      if j + 2 <= |key| {
        assert line[j..j + 2] == key[j..j + 2];
        assert !Occurs(key, ColonSpace, j);
      } else {
        assert line[j + 1] == ':';
        assert line[j..j + 2][1] == line[j + 1];
      }
    }
    assert line[|key|..|key| + 2] == ColonSpace;
    IndexOfIs(line, ColonSpace, |key|);
    assert line[..|key|] == key;
    assert line[|key| + 2..] == value;
    assert IndexOf(value, ColonSpace).None?;
    SeparatorCount(line);
  }

  /** Every line has one separator, and `pairs` holds the key and value of each line, in order. */
  ghost predicate SplitsInto(lines: seq<string>, pairs: seq<(string, string)>) {
    && |pairs| == |lines|
    && forall i :: 0 <= i < |lines| ==>
      Separators(lines[i]) == 1 && pairs[i] == (KeyOf(lines[i]), ValueOf(lines[i]))
  }

  /** `e` reports the first line without exactly one separator, with the number of parts it split into. */
  ghost predicate FirstBadLine(lines: seq<string>, e: InfoError) {
    && e.ElementLength?
    && e.index < |lines|
    && e.length == Separators(lines[e.index]) + 1
    && e.length != 2
    && forall j :: 0 <= j < e.index ==> Separators(lines[j]) == 1
  }

  /** One more well-formed line adds its key and value at the end. */
  lemma ExtendPairs(lines: seq<string>, pairs: seq<(string, string)>)
    requires |lines| > 0 && Separators(lines[|lines| - 1]) == 1
    requires SplitsInto(lines[..|lines| - 1], pairs)
    ensures SplitsInto(lines, pairs + [(KeyOf(lines[|lines| - 1]), ValueOf(lines[|lines| - 1]))])
  {
    var n := |lines| - 1;
    forall i | 0 <= i < n
      ensures lines[..n][i] == lines[i]
    {
    }
  }

  /** A failure in the earlier lines is still the first failure once a line is added. */
  lemma ExtendFailure(lines: seq<string>, e: InfoError)
    requires |lines| > 0 && FirstBadLine(lines[..|lines| - 1], e)
    ensures FirstBadLine(lines, e)
  {
    var n := |lines| - 1;
    assert lines[..n][e.index] == lines[e.index];
    forall j | 0 <= j < e.index
      ensures Separators(lines[j]) == 1
    {
      assert lines[..n][j] == lines[j];
    }
  }

  /** A malformed line after well-formed ones is the first failure. */
  lemma FailAtLast(lines: seq<string>, pairs: seq<(string, string)>)
    requires |lines| > 0 && Separators(lines[|lines| - 1]) != 1
    requires SplitsInto(lines[..|lines| - 1], pairs)
    ensures FirstBadLine(lines, ElementLength(|lines| - 1, Separators(lines[|lines| - 1]) + 1))
  {
    var n := |lines| - 1;
    forall j | 0 <= j < n
      ensures Separators(lines[j]) == 1
    {
      assert lines[..n][j] == lines[j];
    }
  }

  /**
   * The list comprehension followed by the element check of `dict()`: every
   * line split on ": ", the first line that does not give two parts raising.
   */
  function ParsePairs(lines: seq<string>): (r: Result<seq<(string, string)>, InfoError>)
    ensures r.Success? ==> SplitsInto(lines, r.value)
    ensures r.Failure? ==> FirstBadLine(lines, r.error)
    decreases |lines|
  {
    if |lines| == 0 then Success([])
    else
      var n := |lines| - 1;
      var init := ParsePairs(lines[..n]);
      if init.Failure? then
        ExtendFailure(lines, init.error);
        init
      else
        var parts := Split(lines[n], ColonSpace);
        SeparatorCount(lines[n]);
        if |parts| == 2 then
          ExtendPairs(lines, init.value);
          Success(init.value + [(parts[0], parts[1])])
        else
          FailAtLast(lines, init.value);
          Failure(ElementLength(n, |parts|))
  }

  /** Some pair of `pairs` has key `k`. */
  predicate HasKey(pairs: seq<(string, string)>, k: string) {
    exists i :: 0 <= i < |pairs| && pairs[i].0 == k
  }

  /** Pair `i` is the last one with its key. */
  predicate IsLast<V>(pairs: seq<(string, V)>, i: nat)
    requires i < |pairs|
  {
    forall j :: i < j < |pairs| ==> pairs[j].0 != pairs[i].0
  }

  /** The map `m` is `dict(pairs)`: exactly the keys of `pairs`, each bound to the value of its last pair. */
  ghost predicate IsDictOf(m: map<string, string>, pairs: seq<(string, string)>) {
    && (forall k :: k in m <==> HasKey(pairs, k))
    && (forall i :: 0 <= i < |pairs| && IsLast(pairs, i) ==> pairs[i].0 in m && m[pairs[i].0] == pairs[i].1)
  }

  /** Inserting one more pair into the dictionary of the earlier ones gives the dictionary of all of them. */
  lemma InsertLast(pairs: seq<(string, string)>, init: map<string, string>)
    requires |pairs| > 0
    requires IsDictOf(init, pairs[..|pairs| - 1])
    ensures IsDictOf(init[pairs[|pairs| - 1].0 := pairs[|pairs| - 1].1], pairs)
  {
    var n := |pairs| - 1;
    var m := init[pairs[n].0 := pairs[n].1];
    forall k
      ensures k in m <==> HasKey(pairs, k)
    {
      if HasKey(pairs, k) && k != pairs[n].0 {
        var i :| 0 <= i < |pairs| && pairs[i].0 == k;
        assert pairs[..n][i] == pairs[i];
      }
      if k in init {
        var i :| 0 <= i < n && pairs[..n][i].0 == k;
        assert pairs[i] == pairs[..n][i];
      }
    }
    forall i | 0 <= i < |pairs| && IsLast(pairs, i)
      ensures pairs[i].0 in m && m[pairs[i].0] == pairs[i].1
    {
      if i < n {
        assert pairs[n].0 != pairs[i].0;
        assert pairs[..n][i] == pairs[i];
        assert IsLast(pairs[..n], i);
      }
    }
  }

  /** Python's `dict(pairs)`: one entry per key, a later pair overwriting an earlier one. */
  function BuildDict(pairs: seq<(string, string)>): (m: map<string, string>)
    ensures IsDictOf(m, pairs)
    decreases |pairs|
  {
    if |pairs| == 0 then map[]
    else
      var n := |pairs| - 1;
      var init := BuildDict(pairs[..n]);
      InsertLast(pairs, init);
      init[pairs[n].0 := pairs[n].1]
  }

  /**
   * `dict([i.split(': ') for i in text.split('\n') if i])`: succeeds exactly
   * when every non-empty line has one separator, fails on the first that does
   * not, and maps each key to the value of the LAST line carrying that key.
   */
  function ParseInfo(text: string): (r: Result<map<string, string>, InfoError>)
    ensures var lines := Lines(text);
      r.Success? <==> forall i :: 0 <= i < |lines| ==> Separators(lines[i]) == 1
    ensures var lines := Lines(text);
      r.Failure? ==>
        && r.error.ElementLength?
        && r.error.index < |lines|
        && r.error.length == Separators(lines[r.error.index]) + 1
        && r.error.length != 2
        && forall j :: 0 <= j < r.error.index ==> Separators(lines[j]) == 1
    ensures var lines := Lines(text);
      r.Success? ==> forall k :: k in r.value <==> exists i :: 0 <= i < |lines| && KeyOf(lines[i]) == k
    ensures var lines := Lines(text);
      r.Success? ==> forall i :: 0 <= i < |lines| && (forall j :: i < j < |lines| ==> KeyOf(lines[j]) != KeyOf(lines[i])) ==>
        && Separators(lines[i]) == 1
        && KeyOf(lines[i]) in r.value
        && r.value[KeyOf(lines[i])] == ValueOf(lines[i])
  {
    var lines := Lines(text);
    var pairs :- ParsePairs(lines);
    Success(BuildDict(pairs))
  }

  /** Non-empty lines are what the text holds between its newlines, empty ones dropped. */
  lemma LinesAppend(a: string, b: string)
    ensures Lines(a + Newline + b) == Lines(a) + Lines(b)
  {
    SplitAtSeparator(a, '\n', b);
    NonEmptyAppend(Split(a, Newline), Split(b, Newline));
  }

  /** The empty string after a trailing newline contributes nothing to the parse. */
  lemma TrailingNewline(text: string)
    ensures Lines(text + Newline) == Lines(text)
    ensures ParseInfo(text + Newline) == ParseInfo(text)
  {
    LinesAppend(text, "");
    assert text + Newline + "" == text + Newline;
    assert IndexOf("", Newline).None?;
    assert Split("", Newline) == [""];
    assert NonEmpty([""]) == [];
    assert Lines(text) + [] == Lines(text);
  }

  /** Dropping a prefix never adds occurrences. */
  lemma {:induction false} CountSuffix(s: string, sep: string, i: nat)
    requires i <= |s|
    ensures CountOccurrences(s, sep) >= CountOccurrences(s[i..], sep)
    decreases i
  {
    if i > 0 {
      CountSuffix(s[1..], sep, i - 1);
      assert s[1..][i - 1..] == s[i..];
    }
  }

  /** A line `key: value` whose value itself contains ": " has at least two separators. */
  lemma SeparatorInValue(key: string, value: string)
    requires Contains(value, ColonSpace)
    ensures Separators(key + ColonSpace + value) >= 2
  {
    var line := key + ColonSpace + value;
    var j := IndexOf(value, ColonSpace).value;
    CountSuffix(value, ColonSpace, j);
    assert CountOccurrences(value, ColonSpace) >= 1;
    CountSuffix(line, ColonSpace, |key|);
    var tail := line[|key|..];
    assert tail[..2] == ColonSpace;
    assert tail[1..][1..] == value;
    CountSuffix(tail[1..], ColonSpace, 1);
  }

  /** So one such line anywhere in the output makes the whole parse fail. */
  lemma ValueWithSeparatorFails(text: string, key: string, value: string)
    requires Contains(value, ColonSpace)
    requires key + ColonSpace + value in Lines(text)
    ensures ParseInfo(text).Failure?
  {
    SeparatorInValue(key, value);
  }

  /** A key or value `bazel info` can print on one line: no newline and no ": " in it. */
  predicate Printable(pair: (string, string)) {
    && !Contains(pair.0, ColonSpace) && !Contains(pair.1, ColonSpace)
    && (forall k :: 0 <= k < |pair.0| ==> pair.0[k] != '\n')
    && (forall k :: 0 <= k < |pair.1| ==> pair.1[k] != '\n')
  }

  /** The line `key: value`. */
  function FormatLine(pair: (string, string)): string {
    pair.0 + ColonSpace + pair.1
  }

  /** The output of `bazel info`: one `key: value` line per pair, separated by newlines. */
  function Format(pairs: seq<(string, string)>): string {
    Join(seq(|pairs|, i requires 0 <= i < |pairs| => FormatLine(pairs[i])), Newline)
  }

  /** A printable pair gives one non-empty line without a newline. */
  lemma FormatLineNoNewline(pair: (string, string))
    requires Printable(pair)
    ensures FormatLine(pair) != "" && !Contains(FormatLine(pair), Newline)
  {
    var line := FormatLine(pair);
    assert forall k :: 0 <= k < |line| ==> line[k] != '\n' by {
      forall k | 0 <= k < |line|
        ensures line[k] != '\n'
      {
        if k < |pair.0| {
          assert line[k] == pair.0[k];
        } else if k >= |pair.0| + 2 {
          assert line[k] == pair.1[k - |pair.0| - 2];
        }
      }
    }
    NoCharNoContains(line, '\n');
  }

  /** The lines of formatted output parse back into the pairs, in order. */
  lemma {:induction false} ParsePairsFormat(pairs: seq<(string, string)>)
    requires forall i :: 0 <= i < |pairs| ==> Printable(pairs[i])
    ensures ParsePairs(seq(|pairs|, i requires 0 <= i < |pairs| => FormatLine(pairs[i]))) == Success(pairs)
    decreases |pairs|
  {
    if |pairs| > 0 {
      var n := |pairs| - 1;
      var lines := seq(|pairs|, i requires 0 <= i < |pairs| => FormatLine(pairs[i]));
      assert lines[..n] == seq(n, i requires 0 <= i < n => FormatLine(pairs[..n][i]));
      ParsePairsFormat(pairs[..n]);
      assert ParsePairs(lines[..n]) == Success(pairs[..n]);
      assert lines[n] == pairs[n].0 + ColonSpace + pairs[n].1;
      LineRoundTrip(pairs[n].0, pairs[n].1);
      assert Split(lines[n], ColonSpace) == [pairs[n].0, pairs[n].1];
      assert pairs[..n] + [(pairs[n].0, pairs[n].1)] == pairs;
    }
  }

  /**
   * Parsing inverts formatting: the output printed for any printable pairs,
   * with or without its final newline, parses to `dict(pairs)`, every key
   * bound to the value of its last pair.
   */
  lemma ParseFormat(pairs: seq<(string, string)>)
    requires forall i :: 0 <= i < |pairs| ==> Printable(pairs[i])
    ensures ParseInfo(Format(pairs)).Success?
    ensures IsDictOf(ParseInfo(Format(pairs)).value, pairs)
    ensures ParseInfo(Format(pairs) + Newline) == ParseInfo(Format(pairs))
  {
    var lines := seq(|pairs|, i requires 0 <= i < |pairs| => FormatLine(pairs[i]));
    if |pairs| == 0 {
      assert lines == [];
      assert Format(pairs) == "";
      assert IndexOf("", Newline).None?;
      assert Split("", Newline) == [""];
      assert NonEmpty([""]) == [];
    } else {
      forall k | 0 <= k < |lines|
        ensures lines[k] != "" && !Contains(lines[k], Newline)
      {
        FormatLineNoNewline(pairs[k]);
      }
      SplitJoin(lines, '\n');
      NonEmptyKeeps(lines);
      assert Lines(Format(pairs)) == lines;
    }
    ParsePairsFormat(pairs);
    TrailingNewline(Format(pairs));
  }

  /**
   * Among duplicate keys the later line wins: whatever came before, the last
   * line printed decides its key's value, and every earlier key is kept.
   */
  lemma LastLineWins(pairs: seq<(string, string)>, key: string, value: string)
    requires forall i :: 0 <= i < |pairs| ==> Printable(pairs[i])
    requires Printable((key, value))
    ensures ParseInfo(Format(pairs + [(key, value)])).Success?
    ensures var m := ParseInfo(Format(pairs + [(key, value)])).value;
      && key in m && m[key] == value
      && forall i :: 0 <= i < |pairs| ==> pairs[i].0 in m
  {
    var all := pairs + [(key, value)];
    forall i | 0 <= i < |all|
      ensures Printable(all[i])
    {
      if i < |pairs| {
        assert all[i] == pairs[i];
      }
    }
    ParseFormat(all);
    DictOfSnoc(ParseInfo(Format(all)).value, pairs, key, value);
  }

  /** In the dictionary of pairs ending in `(key, value)`, `key` maps to `value` and every earlier key is present. */
  lemma DictOfSnoc(m: map<string, string>, pairs: seq<(string, string)>, key: string, value: string)
    requires IsDictOf(m, pairs + [(key, value)])
    ensures key in m && m[key] == value
    ensures forall i :: 0 <= i < |pairs| ==> pairs[i].0 in m
  {
    var all := pairs + [(key, value)];
    assert all[|pairs|] == (key, value);
    assert IsLast(all, |pairs|);
    forall i | 0 <= i < |pairs|
      ensures pairs[i].0 in m
    {
      assert all[i] == pairs[i];
      assert HasKey(all, pairs[i].0);
    }
  }

  /** The configuration the script reads from `bazel info` (lines 53-56). */
  datatype BazelConf = BazelConf(outputBase: string, executionRoot: string, workspace: string)

  /**
   * Parse, then look up `output_base`, `execution_root` and `workspace` in
   * that order; the first missing key raises.
   */
  function GetBazelConf(text: string): (r: Result<BazelConf, InfoError>)
    ensures ParseInfo(text).Failure? ==> r == Failure(ParseInfo(text).error)
    ensures ParseInfo(text).Success? ==>
      var m := ParseInfo(text).value;
      && (r.Success? <==> "output_base" in m && "execution_root" in m && "workspace" in m)
      && (r.Success? ==> r.value == BazelConf(m["output_base"], m["execution_root"], m["workspace"]))
      && (r.Failure? ==> r.error.MissingKey? && r.error.key !in m)
      && (r.Failure? ==> r.error.key in {"output_base", "execution_root", "workspace"})
      && (r.Failure? && r.error.key != "output_base" ==> "output_base" in m)
      && (r.Failure? && r.error.key == "workspace" ==> "output_base" in m && "execution_root" in m)
  {
    var m :- ParseInfo(text);
    if "output_base" !in m then Failure(MissingKey("output_base"))
    else if "execution_root" !in m then Failure(MissingKey("execution_root"))
    else if "workspace" !in m then Failure(MissingKey("workspace"))
    else Success(BazelConf(m["output_base"], m["execution_root"], m["workspace"]))
  }

  /** The last pair with a given key decides that key in the parsed output. */
  lemma LastPairDecides(pairs: seq<(string, string)>, i: nat)
    requires forall j :: 0 <= j < |pairs| ==> Printable(pairs[j])
    requires i < |pairs| && IsLast(pairs, i)
    ensures ParseInfo(Format(pairs)).Success?
    ensures pairs[i].0 in ParseInfo(Format(pairs)).value
    ensures ParseInfo(Format(pairs)).value[pairs[i].0] == pairs[i].1
  {
    ParseFormat(pairs);
  }

  /** A parsed map holding the three keys gives the configuration of their values. */
  lemma ConfOfMap(text: string, outputBase: string, executionRoot: string, workspace: string)
    requires ParseInfo(text).Success?
    requires var m := ParseInfo(text).value;
      && "output_base" in m && m["output_base"] == outputBase
      && "execution_root" in m && m["execution_root"] == executionRoot
      && "workspace" in m && m["workspace"] == workspace
    ensures GetBazelConf(text) == Success(BazelConf(outputBase, executionRoot, workspace))
  {
  }

  /**
   * Reading the configuration from printed `bazel info` output: wherever the
   * keys `output_base`, `execution_root` and `workspace` appear, in any order
   * and among any other keys, the configuration holds the values of the last
   * line printed for each of them.
   */
  lemma ConfFromInfo(pairs: seq<(string, string)>, i: nat, j: nat, k: nat,
                     outputBase: string, executionRoot: string, workspace: string)
    requires forall n :: 0 <= n < |pairs| ==> Printable(pairs[n])
    requires i < |pairs| && pairs[i] == ("output_base", outputBase) && IsLast(pairs, i)
    requires j < |pairs| && pairs[j] == ("execution_root", executionRoot) && IsLast(pairs, j)
    requires k < |pairs| && pairs[k] == ("workspace", workspace) && IsLast(pairs, k)
    ensures GetBazelConf(Format(pairs)) == Success(BazelConf(outputBase, executionRoot, workspace))
  {
    LastPairDecides(pairs, i);
    LastPairDecides(pairs, j);
    LastPairDecides(pairs, k);
    ConfOfMap(Format(pairs), outputBase, executionRoot, workspace);
  }

  /** The keys read from `bazel info`, in the order lines 54-56 look them up. */
  const ConfKeys: seq<string> := ["output_base", "execution_root", "workspace"]

  /**
   * The missing-key counterpart: when printed output lacks the `t`-th key of
   * the lookup order but has every key looked up before it, reading the
   * configuration raises the KeyError of exactly that key.
   */
  lemma ConfMissingKey(pairs: seq<(string, string)>, t: nat)
    requires forall n :: 0 <= n < |pairs| ==> Printable(pairs[n])
    requires t < |ConfKeys| && !HasKey(pairs, ConfKeys[t])
    requires forall s :: 0 <= s < t ==> HasKey(pairs, ConfKeys[s])
    ensures GetBazelConf(Format(pairs)) == Failure(MissingKey(ConfKeys[t]))
  {
    ParseFormat(pairs);
    var m := ParseInfo(Format(pairs)).value;
    forall s | 0 <= s < t
      ensures ConfKeys[s] in m
    {
      assert HasKey(pairs, ConfKeys[s]);
    }
    MissingOfMap(Format(pairs), t);
  }

  /** A parsed map lacking the `t`-th key of the lookup order, but none before it, raises that key's KeyError. */
  lemma MissingOfMap(text: string, t: nat)
    requires ParseInfo(text).Success?
    requires t < |ConfKeys| && ConfKeys[t] !in ParseInfo(text).value
    requires forall s :: 0 <= s < t ==> ConfKeys[s] in ParseInfo(text).value
    ensures GetBazelConf(text) == Failure(MissingKey(ConfKeys[t]))
  {
    if t > 0 {
      assert ConfKeys[0] in ParseInfo(text).value;
    }
    if t > 1 {
      assert ConfKeys[1] in ParseInfo(text).value;
    }
  }
}

=== FILE: filesystem.dfy ===
/**
 * The abstract filesystem the script works on: a map from absolute paths
 * (sequences of name components, `[]` being `/`) to the node found there.
 * Symbolic links are stored, never followed.
 */
module FileSystem {
  import opened Strings

  type Path = seq<string>

  datatype Node = Dir | File | Symlink(target: Path)

  type FileSystem = map<Path, Node>

  /** The OS errors the script lets escape. */
  datatype OsError =
      /** `os.listdir` on a path that is not a directory (FileNotFoundError, NotADirectoryError). */
    | NotADirectory(path: Path)
      /** `os.remove` on a real directory (IsADirectoryError). */
    | IsADirectory(path: Path)

  /** `os.path.isdir`, without following symbolic links. */
  predicate IsDir(fs: FileSystem, p: Path) {
    p in fs && fs[p].Dir?
  }

  /** `p / name`. */
  function Child(p: Path, name: string): (c: Path)
    ensures |c| == |p| + 1 && c[..|p|] == p && c[|p|] == name
  {
    p + [name]
  }

  /** The directory holding `p`. */
  function Parent(p: Path): Path
    requires |p| > 0
  {
    p[..|p| - 1]
  }

  /** A path is its parent's child by its own name. */
  lemma ChildName(d: Path, p: Path)
    requires |p| > 0 && Parent(p) == d
    ensures p == Child(d, Name(p))
  {
  }

  /** pathlib's `p.name`: the last component, or "" for the root. */
  function Name(p: Path): string {
    if |p| == 0 then "" else p[|p| - 1]
  }

  /** A real filesystem: the root is a directory, and every other entry sits in a directory. */
  ghost predicate WellFormed(fs: FileSystem) {
    && IsDir(fs, [])
    && forall p :: p in fs && |p| > 0 ==> IsDir(fs, Parent(p))
  }

  /** In a well-formed filesystem every ancestor of an entry is a directory. */
  lemma {:induction false} AncestorsAreDirs(fs: FileSystem, p: Path, k: nat)
    requires WellFormed(fs) && p in fs && k < |p|
    ensures IsDir(fs, p[..k])
    decreases |p| - k
  {
    if k == |p| - 1 {
      assert Parent(p) == p[..k];
    } else {
      AncestorsAreDirs(fs, Parent(p), k);
      assert Parent(p)[..k] == p[..k];
    }
  }

  /** A name pathlib keeps as a component of an absolute path. */
  predicate ProperName(name: string) {
    name != "" && name != "." && !Contains(name, "/")
  }

  /** `str(p)`: "/" followed by the components joined with "/". */
  function PathString(p: Path): string {
    "/" + Join(p, "/")
  }

  /** The components pathlib keeps: empty ones (from repeated slashes) and "." dropped. */
  function Components(parts: seq<string>): (r: Path)
    ensures forall k :: 0 <= k < |r| ==> r[k] != "" && r[k] != "."
  {
    if |parts| == 0 then []
    else (if parts[0] == "" || parts[0] == "." then [] else [parts[0]]) + Components(parts[1..])
  }

  /** `Path(s)` for an absolute path string. */
  function ParsePath(s: string): (p: Path)
    ensures forall k :: 0 <= k < |p| ==> ProperName(p[k])
  {
    var parts := Split(s, "/");
    var p := Components(parts);
    assert forall k :: 0 <= k < |p| ==> p[k] in parts by {
      ComponentsAreParts(parts);
    }
    p
  }

  /** Every kept component is one of the parts. */
  lemma {:induction false} ComponentsAreParts(parts: seq<string>)
    ensures forall x :: x in Components(parts) ==> x in parts
    decreases |parts|
  {
    if |parts| > 0 {
      ComponentsAreParts(parts[1..]);
    }
  }

  /** Dropping nothing: a list of proper names is kept whole. */
  lemma {:induction false} ComponentsOfProper(p: Path)
    requires forall k :: 0 <= k < |p| ==> ProperName(p[k])
    ensures Components(p) == p
    decreases |p|
  {
    if |p| > 0 {
      ComponentsOfProper(p[1..]);
      assert p == [p[0]] + p[1..];
    }
  }

  /** `Path(str(p)) == p` for every path made of proper names. */
  lemma PathStringRoundTrip(p: Path)
    requires forall k :: 0 <= k < |p| ==> ProperName(p[k])
    ensures ParsePath(PathString(p)) == p
  {
    SplitAtSeparator("", '/', Join(p, "/"));
    assert "" + "/" + Join(p, "/") == PathString(p);
    assert Split("", "/") == [""];
    if |p| == 0 {
      assert Split(PathString(p), "/") == ["", ""];
      assert Components(["", ""]) == [];
    } else {
      SplitJoin(p, '/');
      assert Split(PathString(p), "/") == [""] + p;
      assert ([""] + p)[1..] == p;
      ComponentsOfProper(p);
    }
  }
}

=== FILE: pip_links.dfy ===
/**
 * `copy_to_pip` (bazel_python_venv.py, lines 97-111): link one package
 * directory into the virtual environment's site-packages directory, and the
 * fold of it over a sequence of calls.
 */
module PipLinks {
  import opened Wrappers
  import opened FileSystem

  /** Directory names that are never linked. */
  const Reserved: set<string> := {"__pycache__", "setuptools", "pkg_resources"}

  /** The build-description file whose presence marks a directory as managed by Bazel. */
  const BuildFile: string := "BUILD"

  /** One call `copy_to_pip(directory, copy_from_src)`. */
  datatype Call = Call(directory: Path, copyFromSrc: bool)

  /** The guards of lines 98-101: the call returns before touching anything. */
  predicate Skipped(fs: FileSystem, c: Call) {
    || Name(c.directory) in Reserved
    || (Child(c.directory, BuildFile) in fs && !c.copyFromSrc)
  }

  /** `SITE_PACKAGES_PATH / directory.name`; pathlib drops the empty name of the root. */
  function Dst(sitePackages: Path, directory: Path): Path {
    if |directory| == 0 then sitePackages else Child(sitePackages, Name(directory))
  }

  /** `os.symlink` can create an entry at `p`: its parent is an existing directory. */
  predicate ParentIsDir(fs: FileSystem, p: Path) {
    |p| > 0 && IsDir(fs, Parent(p))
  }

  /** `fs'` differs from `fs` at most at path `p`. */
  ghost predicate OnlyChanged(fs: FileSystem, fs': FileSystem, p: Path) {
    forall q :: q != p ==> (q in fs' <==> q in fs) && (q in fs' ==> fs'[q] == fs[q])
  }

  /**
   * `copy_to_pip(directory, copy_from_src)`. Unless a guard fires, whatever
   * is at the destination is removed (`os.remove`, outside the `try`, so a
   * real directory there raises and aborts the run), then a symbolic link to
   * the directory is created; a failing `os.symlink` is only logged.
   */
  function CopyToPip(fs: FileSystem, sitePackages: Path, c: Call): (r: Result<FileSystem, OsError>)
    ensures Skipped(fs, c) ==> r == Success(fs)
    ensures !Skipped(fs, c) && IsDir(fs, Dst(sitePackages, c.directory)) ==>
      r == Failure(IsADirectory(Dst(sitePackages, c.directory)))
    ensures !Skipped(fs, c) && !IsDir(fs, Dst(sitePackages, c.directory)) ==>
      var dst := Dst(sitePackages, c.directory);
      && r.Success?
      && OnlyChanged(fs, r.value, dst)
      && (dst in r.value <==> ParentIsDir(fs, dst))
      && (dst in r.value ==> r.value[dst] == Symlink(c.directory))
  {
    if Skipped(fs, c) then Success(fs)
    else
      var dst := Dst(sitePackages, c.directory);
      if IsDir(fs, dst) then Failure(IsADirectory(dst))
      else
        var removed := fs - {dst};
        if ParentIsDir(removed, dst) then Success(removed[dst := Symlink(c.directory)])
        else Success(removed)
  }

  /** Linking the same directory again changes nothing: the second call removes and recreates the same link. */
  lemma CopyToPipIdempotent(fs: FileSystem, sitePackages: Path, c: Call)
    requires CopyToPip(fs, sitePackages, c).Success?
    ensures CopyToPip(CopyToPip(fs, sitePackages, c).value, sitePackages, c) == CopyToPip(fs, sitePackages, c)
  {
    var fs1 := CopyToPip(fs, sitePackages, c).value;
    if !Skipped(fs, c) {
      var dst := Dst(sitePackages, c.directory);
      assert !IsDir(fs1, dst);
      if !Skipped(fs1, c) {
        assert fs1 - {dst} == fs - {dst};
      }
    }
  }

  /** Linking keeps a real filesystem real: every entry, the new link included, sits in a directory. */
  lemma CopyToPipKeepsWellFormed(fs: FileSystem, sitePackages: Path, c: Call)
    requires WellFormed(fs)
    requires CopyToPip(fs, sitePackages, c).Success?
    ensures WellFormed(CopyToPip(fs, sitePackages, c).value)
  {
    var fs1 := CopyToPip(fs, sitePackages, c).value;
    if !Skipped(fs, c) {
      var dst := Dst(sitePackages, c.directory);
      assert dst != [];
      forall p | p in fs1 && |p| > 0
        ensures IsDir(fs1, Parent(p))
      {
        if p != dst {
          assert IsDir(fs, Parent(p));
          assert Parent(p) != dst;
        }
      }
    }
  }

  /** The fold of `copy_to_pip` over `calls`, the first exception aborting it. */
  function LinkAll(fs: FileSystem, sitePackages: Path, calls: seq<Call>): Result<FileSystem, OsError>
    decreases |calls|
  {
    if |calls| == 0 then Success(fs)
    else
      var prev := LinkAll(fs, sitePackages, calls[..|calls| - 1]);
      if prev.Failure? then prev
      else CopyToPip(prev.value, sitePackages, calls[|calls| - 1])
  }

  /** Two separate call sequences make a separate one. */
  lemma SeparateAppend(sitePackages: Path, a: seq<Call>, b: seq<Call>)
    requires Separate(sitePackages, a) && Separate(sitePackages, b)
    ensures Separate(sitePackages, a + b)
  {
    assert forall i :: 0 <= i < |a + b| ==> (a + b)[i] == if i < |a| then a[i] else b[i - |a|];
  }

  /** Folding `a + b` is folding `a`, then, unless that raised, folding `b` over its result. */
  lemma {:induction false} LinkAllAppend(fs: FileSystem, sitePackages: Path, a: seq<Call>, b: seq<Call>)
    ensures LinkAll(fs, sitePackages, a + b) ==
      var first := LinkAll(fs, sitePackages, a);
      if first.Failure? then first else LinkAll(first.value, sitePackages, b)
    decreases |b|
  {
    if |b| == 0 {
      assert a + b == a;
    } else {
      var n := |b| - 1;
      assert (a + b)[..|a + b| - 1] == a + b[..n];
      assert (a + b)[|a + b| - 1] == b[n];
      LinkAllAppend(fs, sitePackages, a, b[..n]);
    }
  }

  /** Calls on named directories only reach direct children of site-packages. */
  lemma DstsAreChildren(sitePackages: Path, calls: seq<Call>, p: Path)
    requires forall i :: 0 <= i < |calls| ==> |calls[i].directory| > 0
    requires |p| == 0 || Parent(p) != sitePackages
    ensures forall i :: 0 <= i < |calls| ==> Dst(sitePackages, calls[i].directory) != p
  {
  }

  /** A path that is no call's destination keeps its entry through the whole fold. */
  lemma {:induction false} LinkAllFrame(fs: FileSystem, sitePackages: Path, calls: seq<Call>, p: Path)
    requires LinkAll(fs, sitePackages, calls).Success?
    requires forall i :: 0 <= i < |calls| ==> Dst(sitePackages, calls[i].directory) != p
    ensures var fs' := LinkAll(fs, sitePackages, calls).value;
      (p in fs' <==> p in fs) && (p in fs' ==> fs'[p] == fs[p])
    decreases |calls|
  {
    if |calls| > 0 {
      var n := |calls| - 1;
      assert forall i :: 0 <= i < n ==> calls[..n][i] == calls[i];
      LinkAllFrame(fs, sitePackages, calls[..n], p);
    }
  }

  /** The fold keeps a real filesystem real. */
  lemma {:induction false} LinkAllKeepsWellFormed(fs: FileSystem, sitePackages: Path, calls: seq<Call>)
    requires WellFormed(fs)
    requires LinkAll(fs, sitePackages, calls).Success?
    ensures WellFormed(LinkAll(fs, sitePackages, calls).value)
    decreases |calls|
  {
    if |calls| > 0 {
      var n := |calls| - 1;
      LinkAllKeepsWellFormed(fs, sitePackages, calls[..n]);
      CopyToPipKeepsWellFormed(LinkAll(fs, sitePackages, calls[..n]).value, sitePackages, calls[n]);
    }
  }

  /** No call links the root, and none links site-packages itself. */
  predicate Separate(sitePackages: Path, calls: seq<Call>) {
    forall i :: 0 <= i < |calls| ==> |calls[i].directory| > 0 && calls[i].directory != sitePackages
  }

  /** The call would hit a real directory at its destination. */
  predicate Hits(fs: FileSystem, sitePackages: Path, c: Call) {
    !Skipped(fs, c) && IsDir(fs, Dst(sitePackages, c.directory))
  }

  /** The directory of the last call, guards judged on `fs`, that links path `p`. */
  function LastLinked(fs: FileSystem, sitePackages: Path, calls: seq<Call>, p: Path): (r: Option<Path>)
    ensures r.Some? ==> exists i :: (0 <= i < |calls| && calls[i].directory == r.value &&
      !Skipped(fs, calls[i]) && Dst(sitePackages, calls[i].directory) == p)
    ensures r.None? ==> forall i :: 0 <= i < |calls| ==>
      Skipped(fs, calls[i]) || Dst(sitePackages, calls[i].directory) != p
    decreases |calls|
  {
    if |calls| == 0 then None
    else
      var c := calls[|calls| - 1];
      if !Skipped(fs, c) && Dst(sitePackages, c.directory) == p then Some(c.directory)
      else
        var r := LastLinked(fs, sitePackages, calls[..|calls| - 1], p);
        assert forall i :: 0 <= i < |calls| - 1 ==> calls[..|calls| - 1][i] == calls[i];
        r
  }

  /**
   * `fs'` is `fs` after the calls: every destination some call links holds a
   * link to the last such call's directory (or nothing, when its parent is
   * not a directory), and every other path is untouched.
   */
  ghost predicate LinkedState(fs: FileSystem, fs': FileSystem, sitePackages: Path, calls: seq<Call>) {
    forall p ::
      match LastLinked(fs, sitePackages, calls, p)
      case None => (p in fs' <==> p in fs) && (p in fs' ==> fs'[p] == fs[p])
      case Some(d) => (p in fs' <==> ParentIsDir(fs, p)) && (p in fs' ==> fs'[p] == Symlink(d))
  }

  /** The first call, in order, that hits a real directory. */
  ghost predicate FirstHit(fs: FileSystem, sitePackages: Path, calls: seq<Call>, i: nat) {
    && i < |calls|
    && Hits(fs, sitePackages, calls[i])
    && forall j :: 0 <= j < i ==> !Hits(fs, sitePackages, calls[j])
  }

  /** The last linking call for `p` among `calls + [c]`: `c` itself when it links `p`. */
  lemma LastLinkedSnoc(fs: FileSystem, sitePackages: Path, calls: seq<Call>, c: Call, p: Path)
    ensures LastLinked(fs, sitePackages, calls + [c], p) ==
      if !Skipped(fs, c) && Dst(sitePackages, c.directory) == p then Some(c.directory)
      else LastLinked(fs, sitePackages, calls, p)
  {
    assert (calls + [c])[..|calls|] == calls;
  }

  /** Destinations are direct children of site-packages, so neither a guard's BUILD file nor site-packages is one. */
  lemma GuardsStable(fs: FileSystem, fs': FileSystem, sitePackages: Path, calls: seq<Call>, c: Call)
    requires Separate(sitePackages, calls + [c])
    requires LinkedState(fs, fs', sitePackages, calls)
    ensures Skipped(fs', c) == Skipped(fs, c)
    ensures ParentIsDir(fs', Dst(sitePackages, c.directory)) == ParentIsDir(fs, Dst(sitePackages, c.directory))
  {
    var all := calls + [c];
    assert all[|calls|] == c;
    var build := Child(c.directory, BuildFile);
    forall i | 0 <= i < |calls|
      ensures Dst(sitePackages, calls[i].directory) != build
      ensures Dst(sitePackages, calls[i].directory) != sitePackages
    {
      assert all[i] == calls[i];
      var d := Dst(sitePackages, calls[i].directory);
      assert d[..|d| - 1] == sitePackages;
      assert build[..|build| - 1] == c.directory;
    }
    assert LastLinked(fs, sitePackages, calls, build).None?;
    assert LastLinked(fs, sitePackages, calls, sitePackages).None?;
    assert Parent(Dst(sitePackages, c.directory)) == sitePackages;
  }

  /** Before any call has raised, a destination is a real directory exactly when it was one at the start. */
  lemma DirStable(fs: FileSystem, fs': FileSystem, sitePackages: Path, calls: seq<Call>, p: Path)
    requires forall i :: 0 <= i < |calls| ==> !Hits(fs, sitePackages, calls[i])
    requires LinkedState(fs, fs', sitePackages, calls)
    ensures IsDir(fs', p) == IsDir(fs, p)
  {
    var last := LastLinked(fs, sitePackages, calls, p);
    if last.Some? {
      var i :| 0 <= i < |calls| && calls[i].directory == last.value &&
        !Skipped(fs, calls[i]) && Dst(sitePackages, calls[i].directory) == p;
      assert !Hits(fs, sitePackages, calls[i]);
    }
  }

  /** One successful, unguarded call extends the linked state by its own destination. */
  lemma LinkStep(fs: FileSystem, fs1: FileSystem, sitePackages: Path, calls: seq<Call>, c: Call)
    requires Separate(sitePackages, calls + [c])
    requires LinkedState(fs, fs1, sitePackages, calls)
    requires !Skipped(fs, c) && !IsDir(fs1, Dst(sitePackages, c.directory))
    ensures CopyToPip(fs1, sitePackages, c).Success?
    ensures LinkedState(fs, CopyToPip(fs1, sitePackages, c).value, sitePackages, calls + [c])
  {
    GuardsStable(fs, fs1, sitePackages, calls, c);
    var dst := Dst(sitePackages, c.directory);
    var fs2 := CopyToPip(fs1, sitePackages, c).value;
    forall p
      ensures match LastLinked(fs, sitePackages, calls + [c], p)
        case None => (p in fs2 <==> p in fs) && (p in fs2 ==> fs2[p] == fs[p])
        case Some(d) => (p in fs2 <==> ParentIsDir(fs, p)) && (p in fs2 ==> fs2[p] == Symlink(d))
    {
      LastLinkedSnoc(fs, sitePackages, calls, c, p);
    }
  }

  /** A guarded call changes neither the state nor which call links each path. */
  lemma SkipStep(fs: FileSystem, fs1: FileSystem, sitePackages: Path, calls: seq<Call>, c: Call)
    requires Separate(sitePackages, calls + [c])
    requires LinkedState(fs, fs1, sitePackages, calls)
    requires Skipped(fs, c)
    ensures CopyToPip(fs1, sitePackages, c) == Success(fs1)
    ensures LinkedState(fs, fs1, sitePackages, calls + [c])
  {
    GuardsStable(fs, fs1, sitePackages, calls, c);
    forall p
      ensures LastLinked(fs, sitePackages, calls + [c], p) == LastLinked(fs, sitePackages, calls, p)
    {
      LastLinkedSnoc(fs, sitePackages, calls, c, p);
    }
  }

  /**
   * The outcome of linking a sequence of calls: it raises exactly when some
   * call that passes its guards finds a real directory at its destination
   * (the first such call raising), and otherwise each destination holds the
   * link of the LAST call that targets it, with nothing else changed.
   */
  lemma {:induction false} LinkAllOutcome(fs: FileSystem, sitePackages: Path, calls: seq<Call>)
    requires Separate(sitePackages, calls)
    ensures LinkAll(fs, sitePackages, calls).Failure? <==>
      exists i :: 0 <= i < |calls| && Hits(fs, sitePackages, calls[i])
    ensures LinkAll(fs, sitePackages, calls).Failure? ==>
      exists i :: 0 <= i && FirstHit(fs, sitePackages, calls, i) &&
        LinkAll(fs, sitePackages, calls).error == IsADirectory(Dst(sitePackages, calls[i].directory))
    ensures LinkAll(fs, sitePackages, calls).Success? ==>
      LinkedState(fs, LinkAll(fs, sitePackages, calls).value, sitePackages, calls)
    decreases |calls|
  {
    if |calls| == 0 {
      return;
    }
    var n := |calls| - 1;
    var pre := calls[..n];
    assert Separate(sitePackages, pre) by {
      assert forall i :: 0 <= i < n ==> pre[i] == calls[i];
    }
    LinkAllOutcome(fs, sitePackages, pre);
    var prev := LinkAll(fs, sitePackages, pre);
    if prev.Failure? {
      var i :| 0 <= i && FirstHit(fs, sitePackages, pre, i) &&
        prev.error == IsADirectory(Dst(sitePackages, pre[i].directory));
      EarlierFailure(fs, sitePackages, calls, i);
    } else {
      LastOutcome(fs, sitePackages, calls);
    }
  }

  /** A first hit among the calls before the last stays the first hit, and its exception is the outcome. */
  lemma EarlierFailure(fs: FileSystem, sitePackages: Path, calls: seq<Call>, i: nat)
    requires |calls| > 0 && FirstHit(fs, sitePackages, calls[..|calls| - 1], i)
    requires LinkAll(fs, sitePackages, calls[..|calls| - 1]).Failure?
    ensures FirstHit(fs, sitePackages, calls, i) && calls[i] == calls[..|calls| - 1][i]
    ensures LinkAll(fs, sitePackages, calls) == LinkAll(fs, sitePackages, calls[..|calls| - 1])
  {
    assert forall j :: 0 <= j < |calls| - 1 ==> calls[..|calls| - 1][j] == calls[j];
  }

  /** No call hits a real directory. */
  predicate NoHits(fs: FileSystem, sitePackages: Path, calls: seq<Call>) {
    forall j :: 0 <= j < |calls| ==> !Hits(fs, sitePackages, calls[j])
  }

  /** After calls that hit nothing, the last call decides the outcome. */
  lemma LastOutcome(fs: FileSystem, sitePackages: Path, calls: seq<Call>)
    requires Separate(sitePackages, calls) && |calls| > 0
    requires LinkAll(fs, sitePackages, calls[..|calls| - 1]).Success?
    requires NoHits(fs, sitePackages, calls[..|calls| - 1])
    requires LinkedState(fs, LinkAll(fs, sitePackages, calls[..|calls| - 1]).value, sitePackages, calls[..|calls| - 1])
    ensures LinkAll(fs, sitePackages, calls).Failure? <==> Hits(fs, sitePackages, calls[|calls| - 1])
    ensures LinkAll(fs, sitePackages, calls).Failure? ==>
      FirstHit(fs, sitePackages, calls, |calls| - 1) &&
      LinkAll(fs, sitePackages, calls).error == IsADirectory(Dst(sitePackages, calls[|calls| - 1].directory))
    ensures LinkAll(fs, sitePackages, calls).Success? ==>
      NoHits(fs, sitePackages, calls) &&
      LinkedState(fs, LinkAll(fs, sitePackages, calls).value, sitePackages, calls)
  {
    var n := |calls| - 1;
    var pre := calls[..n];
    var c := calls[n];
    LastSplit(calls);
    OutcomeStep(fs, LinkAll(fs, sitePackages, pre).value, sitePackages, pre, c);
    HitsAtEnd(fs, sitePackages, calls);
  }

  /** A non-empty sequence is its prefix followed by its last element. */
  lemma LastSplit<T>(s: seq<T>)
    requires |s| > 0
    ensures s == s[..|s| - 1] + [s[|s| - 1]]
  {
  }

  /** After calls that hit nothing, the last call is the first hit if it hits, and otherwise nothing hits. */
  lemma HitsAtEnd(fs: FileSystem, sitePackages: Path, calls: seq<Call>)
    requires |calls| > 0 && NoHits(fs, sitePackages, calls[..|calls| - 1])
    ensures Hits(fs, sitePackages, calls[|calls| - 1]) ==> FirstHit(fs, sitePackages, calls, |calls| - 1)
    ensures !Hits(fs, sitePackages, calls[|calls| - 1]) ==> NoHits(fs, sitePackages, calls)
  {
    var n := |calls| - 1;
    forall j | 0 <= j < n
      ensures !Hits(fs, sitePackages, calls[j])
    {
      assert calls[j] == calls[..n][j];
    }
  }

  /**
   * One more call after calls that did not raise: it raises exactly when it
   * hits a real directory, and otherwise extends the linked state.
   */
  lemma OutcomeStep(fs: FileSystem, fs1: FileSystem, sitePackages: Path, pre: seq<Call>, c: Call)
    requires Separate(sitePackages, pre + [c])
    requires LinkedState(fs, fs1, sitePackages, pre)
    requires forall i :: 0 <= i < |pre| ==> !Hits(fs, sitePackages, pre[i])
    ensures CopyToPip(fs1, sitePackages, c).Failure? <==> Hits(fs, sitePackages, c)
    ensures CopyToPip(fs1, sitePackages, c).Failure? ==>
      CopyToPip(fs1, sitePackages, c).error == IsADirectory(Dst(sitePackages, c.directory))
    ensures CopyToPip(fs1, sitePackages, c).Success? ==>
      LinkedState(fs, CopyToPip(fs1, sitePackages, c).value, sitePackages, pre + [c])
  {
    if Skipped(fs, c) {
      SkipStep(fs, fs1, sitePackages, pre, c);
      return;
    }
    var dst := Dst(sitePackages, c.directory);
    DirStable(fs, fs1, sitePackages, pre, dst);
    GuardsStable(fs, fs1, sitePackages, pre, c);
    if !IsDir(fs, dst) {
      LinkStep(fs, fs1, sitePackages, pre, c);
    }
  }

  /**
   * The filesystem the calls leave on disk. An exception ends the run, but
   * the links made before it stay; the raising `os.remove` itself changes
   * nothing.
   */
  function OnDisk(fs: FileSystem, sitePackages: Path, calls: seq<Call>): (r: FileSystem)
    ensures LinkAll(fs, sitePackages, calls).Success? ==> r == LinkAll(fs, sitePackages, calls).value
    decreases |calls|
  {
    if |calls| == 0 then fs
    else
      var n := |calls| - 1;
      var prev := LinkAll(fs, sitePackages, calls[..n]);
      if prev.Failure? then OnDisk(fs, sitePackages, calls[..n])
      else
        var next := CopyToPip(prev.value, sitePackages, calls[n]);
        if next.Success? then next.value else prev.value
  }

  /**
   * What an aborted fold leaves behind: when call `i` is the first to hit a
   * real directory, the fold raises and the disk holds exactly the state
   * reached by the calls before it.
   */
  lemma OnDiskAtFirstHit(fs: FileSystem, sitePackages: Path, calls: seq<Call>, i: nat)
    requires Separate(sitePackages, calls)
    requires FirstHit(fs, sitePackages, calls, i)
    ensures LinkAll(fs, sitePackages, calls).Failure?
    ensures LinkAll(fs, sitePackages, calls[..i]).Success?
    ensures OnDisk(fs, sitePackages, calls) == LinkAll(fs, sitePackages, calls[..i]).value
  {
    HitPrefix(fs, sitePackages, calls, i);
    OnDiskPrefix(fs, sitePackages, calls, i + 1);
  }

  /** The calls up to and including the first hit raise, leaving the state of the calls before it. */
  lemma HitPrefix(fs: FileSystem, sitePackages: Path, calls: seq<Call>, i: nat)
    requires Separate(sitePackages, calls)
    requires FirstHit(fs, sitePackages, calls, i)
    ensures LinkAll(fs, sitePackages, calls[..i + 1]).Failure?
    ensures LinkAll(fs, sitePackages, calls[..i]).Success?
    ensures OnDisk(fs, sitePackages, calls[..i + 1]) == LinkAll(fs, sitePackages, calls[..i]).value
  {
    var upto := calls[..i + 1];
    PrefixThroughHit(fs, sitePackages, calls, i, i + 1);
    FirstHitIsLast(fs, sitePackages, upto, i);
    assert upto[..i] == calls[..i];
  }

  /** Once a prefix of the calls has raised, the rest never run: the outcome and the disk are the prefix's. */
  lemma {:induction false} OnDiskPrefix(fs: FileSystem, sitePackages: Path, calls: seq<Call>, k: nat)
    requires k <= |calls| && LinkAll(fs, sitePackages, calls[..k]).Failure?
    ensures LinkAll(fs, sitePackages, calls) == LinkAll(fs, sitePackages, calls[..k])
    ensures OnDisk(fs, sitePackages, calls) == OnDisk(fs, sitePackages, calls[..k])
    decreases |calls|
  {
    if k < |calls| {
      var pre := calls[..|calls| - 1];
      assert pre[..k] == calls[..k];
      OnDiskPrefix(fs, sitePackages, pre, k);
      FailedPrefix(fs, sitePackages, calls);
    } else {
      assert calls[..k] == calls;
    }
  }

  /** Once the calls before the last have raised, the last call neither runs nor changes the disk. */
  lemma FailedPrefix(fs: FileSystem, sitePackages: Path, calls: seq<Call>)
    requires |calls| > 0 && LinkAll(fs, sitePackages, calls[..|calls| - 1]).Failure?
    ensures LinkAll(fs, sitePackages, calls) == LinkAll(fs, sitePackages, calls[..|calls| - 1])
    ensures OnDisk(fs, sitePackages, calls) == OnDisk(fs, sitePackages, calls[..|calls| - 1])
  {
  }

  /** When the last call is the first to hit, the calls before it succeed and the disk keeps their state. */
  lemma FirstHitIsLast(fs: FileSystem, sitePackages: Path, calls: seq<Call>, i: nat)
    requires Separate(sitePackages, calls)
    requires FirstHit(fs, sitePackages, calls, i) && i == |calls| - 1
    ensures LinkAll(fs, sitePackages, calls).Failure?
    ensures LinkAll(fs, sitePackages, calls[..i]).Success?
    ensures OnDisk(fs, sitePackages, calls) == LinkAll(fs, sitePackages, calls[..i]).value
  {
    var pre := calls[..i];
    var c := calls[i];
    LastSplit(calls);
    PrefixBeforeHit(fs, sitePackages, calls, i);
    NoHitsLinked(fs, sitePackages, pre);
    OutcomeStep(fs, LinkAll(fs, sitePackages, pre).value, sitePackages, pre, c);
  }

  /** The calls before the first hit are separate and hit nothing. */
  lemma PrefixBeforeHit(fs: FileSystem, sitePackages: Path, calls: seq<Call>, i: nat)
    requires Separate(sitePackages, calls)
    requires FirstHit(fs, sitePackages, calls, i)
    ensures Separate(sitePackages, calls[..i])
    ensures forall j :: 0 <= j < i ==> !Hits(fs, sitePackages, calls[..i][j])
  {
    assert forall j :: 0 <= j < i ==> calls[..i][j] == calls[j];
  }

  /** A prefix that reaches past the first hit is separate and has the same first hit. */
  lemma PrefixThroughHit(fs: FileSystem, sitePackages: Path, calls: seq<Call>, i: nat, k: nat)
    requires Separate(sitePackages, calls)
    requires FirstHit(fs, sitePackages, calls, i) && i < k <= |calls|
    ensures Separate(sitePackages, calls[..k])
    ensures FirstHit(fs, sitePackages, calls[..k], i)
  {
    assert forall j :: 0 <= j < k ==> calls[..k][j] == calls[j];
  }

  /** Calls that hit nothing succeed, and leave the linked state. */
  lemma NoHitsLinked(fs: FileSystem, sitePackages: Path, calls: seq<Call>)
    requires Separate(sitePackages, calls)
    requires forall j :: 0 <= j < |calls| ==> !Hits(fs, sitePackages, calls[j])
    ensures LinkAll(fs, sitePackages, calls).Success?
    ensures LinkedState(fs, LinkAll(fs, sitePackages, calls).value, sitePackages, calls)
  {
    LinkAllOutcome(fs, sitePackages, calls);
  }

  /**
   * After an aborted fold every destination of the calls before the first
   * hit holds the link of the last of them that targets it, and nothing else
   * has changed.
   */
  lemma OnDiskLinked(fs: FileSystem, sitePackages: Path, calls: seq<Call>, i: nat)
    requires Separate(sitePackages, calls)
    requires FirstHit(fs, sitePackages, calls, i)
    ensures LinkedState(fs, OnDisk(fs, sitePackages, calls), sitePackages, calls[..i])
  {
    OnDiskAtFirstHit(fs, sitePackages, calls, i);
    assert forall j :: 0 <= j < i ==> calls[..i][j] == calls[j];
    LinkAllOutcome(fs, sitePackages, calls[..i]);
  }

  /** Which call links a path depends on the state only through the guards. */
  lemma {:induction false} LastLinkedSameGuards(fs: FileSystem, fs': FileSystem, sitePackages: Path, calls: seq<Call>, p: Path)
    requires forall i :: 0 <= i < |calls| ==> Skipped(fs', calls[i]) == Skipped(fs, calls[i])
    ensures LastLinked(fs', sitePackages, calls, p) == LastLinked(fs, sitePackages, calls, p)
    decreases |calls|
  {
    if |calls| > 0 {
      var n := |calls| - 1;
      var pre := calls[..n];
      LastSplit(calls);
      assert Skipped(fs', calls[n]) == Skipped(fs, calls[n]);
      assert forall i :: 0 <= i < n ==> Skipped(fs', pre[i]) == Skipped(fs, pre[i]) by {
        forall i | 0 <= i < n
          ensures Skipped(fs', pre[i]) == Skipped(fs, pre[i])
        {
          assert pre[i] == calls[i];
        }
      }
      LastLinkedSameGuards(fs, fs', sitePackages, pre, p);
      LastLinkedSnoc(fs, sitePackages, pre, calls[n], p);
      LastLinkedSnoc(fs', sitePackages, pre, calls[n], p);
    }
  }

  /**
   * Linking is idempotent: folding the same calls over the state a
   * successful fold left succeeds again and changes nothing, so re-running
   * the link pass is harmless.
   */
  lemma LinkAllIdempotent(fs: FileSystem, sitePackages: Path, calls: seq<Call>)
    requires Separate(sitePackages, calls)
    requires LinkAll(fs, sitePackages, calls).Success?
    ensures LinkAll(LinkAll(fs, sitePackages, calls).value, sitePackages, calls) == LinkAll(fs, sitePackages, calls)
  {
    var fs1 := LinkAll(fs, sitePackages, calls).value;
    LinkAllOutcome(fs, sitePackages, calls);
    assert forall i :: 0 <= i < |calls| ==> !Hits(fs, sitePackages, calls[i]);
    GuardsStableAll(fs, fs1, sitePackages, calls);
    forall i | 0 <= i < |calls|
      ensures !Hits(fs1, sitePackages, calls[i])
    {
      DirStable(fs, fs1, sitePackages, calls, Dst(sitePackages, calls[i].directory));
    }
    LinkAllOutcome(fs1, sitePackages, calls);
    DirStable(fs, fs1, sitePackages, calls, sitePackages);
    RelinkFixed(fs, fs1, LinkAll(fs1, sitePackages, calls).value, sitePackages, calls);
  }

  /** No call's guard changes once the calls have been linked. */
  lemma GuardsStableAll(fs: FileSystem, fs1: FileSystem, sitePackages: Path, calls: seq<Call>)
    requires Separate(sitePackages, calls)
    requires LinkedState(fs, fs1, sitePackages, calls)
    ensures forall i :: 0 <= i < |calls| ==> Skipped(fs1, calls[i]) == Skipped(fs, calls[i])
  {
    forall i | 0 <= i < |calls|
      ensures Skipped(fs1, calls[i]) == Skipped(fs, calls[i])
    {
      var all := calls + [calls[i]];
      assert forall j :: 0 <= j < |calls| ==> all[j] == calls[j];
      assert all[|calls|] == calls[i];
      GuardsStable(fs, fs1, sitePackages, calls, calls[i]);
    }
  }

  /** Linking the same calls again over their own result, with the same guards, reproduces that result. */
  lemma RelinkFixed(fs: FileSystem, fs1: FileSystem, fs2: FileSystem, sitePackages: Path, calls: seq<Call>)
    requires Separate(sitePackages, calls)
    requires LinkedState(fs, fs1, sitePackages, calls)
    requires LinkedState(fs1, fs2, sitePackages, calls)
    requires forall i :: 0 <= i < |calls| ==> Skipped(fs1, calls[i]) == Skipped(fs, calls[i])
    requires IsDir(fs1, sitePackages) == IsDir(fs, sitePackages)
    ensures fs2 == fs1
  {
    forall p
      ensures (p in fs2 <==> p in fs1) && (p in fs2 ==> fs2[p] == fs1[p])
    {
      RelinkAt(fs, fs1, fs2, sitePackages, calls, p);
    }
    SameEntries(fs1, fs2);
  }

  /** Two filesystems with the same entries are equal. */
  lemma SameEntries(a: FileSystem, b: FileSystem)
    requires forall p :: (p in b <==> p in a) && (p in b ==> b[p] == a[p])
    ensures b == a
  {
  }

  /** The pointwise step of `RelinkFixed`: each path keeps its entry when the calls are linked again. */
  lemma RelinkAt(fs: FileSystem, fs1: FileSystem, fs2: FileSystem, sitePackages: Path, calls: seq<Call>, p: Path)
    requires Separate(sitePackages, calls)
    requires LinkedState(fs, fs1, sitePackages, calls)
    requires LinkedState(fs1, fs2, sitePackages, calls)
    requires forall i :: 0 <= i < |calls| ==> Skipped(fs1, calls[i]) == Skipped(fs, calls[i])
    requires IsDir(fs1, sitePackages) == IsDir(fs, sitePackages)
    ensures (p in fs2 <==> p in fs1) && (p in fs2 ==> fs2[p] == fs1[p])
  {
    LastLinkedSameGuards(fs, fs1, sitePackages, calls, p);
    var last := LastLinked(fs, sitePackages, calls, p);
    if last.Some? {
      var i :| 0 <= i < |calls| && calls[i].directory == last.value &&
        !Skipped(fs, calls[i]) && Dst(sitePackages, calls[i].directory) == p;
      assert Parent(p) == sitePackages;
    }
  }

  /**
   * A call that passes its guards, into an existing site-packages directory,
   * and whose directory name no other unguarded call shares, leaves a link to
   * its directory once the whole fold has succeeded.
   */
  lemma UniqueCallLinked(fs: FileSystem, sitePackages: Path, calls: seq<Call>, k: nat)
    requires Separate(sitePackages, calls)
    requires k < |calls| && !Skipped(fs, calls[k]) && IsDir(fs, sitePackages)
    requires forall i :: 0 <= i < |calls| && !Skipped(fs, calls[i]) && Name(calls[i].directory) == Name(calls[k].directory) ==>
      calls[i].directory == calls[k].directory
    requires LinkAll(fs, sitePackages, calls).Success?
    ensures var dst := Dst(sitePackages, calls[k].directory);
      var fs' := LinkAll(fs, sitePackages, calls).value;
      dst in fs' && fs'[dst] == Symlink(calls[k].directory)
  {
    LinkAllOutcome(fs, sitePackages, calls);
    var dst := Dst(sitePackages, calls[k].directory);
    var last := LastLinked(fs, sitePackages, calls, dst);
    assert last.Some?;
    var i :| 0 <= i < |calls| && calls[i].directory == last.value &&
      !Skipped(fs, calls[i]) && Dst(sitePackages, calls[i].directory) == dst;
    assert Name(calls[i].directory) == dst[|sitePackages|] == Name(calls[k].directory);
    assert Parent(dst) == sitePackages;
  }

  /**
   * Two calls that target the same destination: the later one wins, and a
   * destination that is not a real directory never makes either raise.
   */
  lemma LaterCallWins(fs: FileSystem, sitePackages: Path, first: Call, second: Call)
    requires Separate(sitePackages, [first, second])
    requires Name(first.directory) == Name(second.directory)
    requires !Skipped(fs, second) && IsDir(fs, sitePackages)
    requires !IsDir(fs, Dst(sitePackages, second.directory))
    ensures LinkAll(fs, sitePackages, [first, second]).Success?
    ensures var dst := Dst(sitePackages, second.directory);
      var fs' := LinkAll(fs, sitePackages, [first, second]).value;
      dst in fs' && fs'[dst] == Symlink(second.directory)
  {
    var calls := [first, second];
    LinkAllOutcome(fs, sitePackages, calls);
    assert calls[..1] == [first];
    assert Dst(sitePackages, first.directory) == Dst(sitePackages, second.directory);
    assert !Hits(fs, sitePackages, calls[0]);
    assert !Hits(fs, sitePackages, calls[1]);
    var dst := Dst(sitePackages, second.directory);
    assert LastLinked(fs, sitePackages, calls, dst) == Some(second.directory);
  }
}

=== FILE: strings.dfy ===
/**
 * The few Python `str` operations the script relies on: substring search
 * (`sep in s`), `s.split(sep)` and `sep.join(parts)`.
 */
module Strings {
  import opened Wrappers

  /** `sep` occurs in `s` starting at index `i`. */
  predicate Occurs(s: string, sep: string, i: int) {
    0 <= i && i + |sep| <= |s| && s[i..i + |sep|] == sep
  }

  /** The index of the first occurrence of `sep` in `s` (Python's `s.find(sep)`, with `None` for -1). */
  function IndexOf(s: string, sep: string): (r: Option<nat>)
    ensures r.Some? ==> Occurs(s, sep, r.value)
    ensures r.Some? ==> forall j :: 0 <= j < r.value ==> !Occurs(s, sep, j)
    ensures r.None? ==> forall j :: !Occurs(s, sep, j)
    decreases |s|
  {
    if |s| < |sep| then None
    else if s[..|sep|] == sep then Some(0)
    else
      var rest := IndexOf(s[1..], sep);
      forall j | 1 <= j
        ensures Occurs(s, sep, j) == Occurs(s[1..], sep, j - 1)
      {
        OccursShift(s, sep, j);
      }
      match rest
      case None => None
      case Some(i) => Some(i + 1)
  }

  /** An occurrence at `j >= 1` is an occurrence at `j - 1` once the first character is dropped. */
  lemma OccursShift(s: string, sep: string, j: int)
    requires 1 <= j && |s| > 0
    ensures Occurs(s, sep, j) == Occurs(s[1..], sep, j - 1)
  {
    if j + |sep| <= |s| {
      assert s[1..][j - 1..j - 1 + |sep|] == s[j..j + |sep|];
    }
  }

  /** Python's `sep in s`. */
  predicate Contains(s: string, sep: string) {
    IndexOf(s, sep).Some?
  }

  /** The first occurrence found by `IndexOf` is the only candidate: no earlier one, one at `i`. */
  lemma IndexOfIs(s: string, sep: string, i: nat)
    requires Occurs(s, sep, i)
    requires forall j :: 0 <= j < i ==> !Occurs(s, sep, j)
    ensures IndexOf(s, sep) == Some(i)
  {
  }

  /** Python's `sep.join(parts)`. */
  function Join(parts: seq<string>, sep: string): string {
    if |parts| == 0 then ""
    else if |parts| == 1 then parts[0]
    else parts[0] + sep + Join(parts[1..], sep)
  }

  /** Occurrences that fit inside a prefix are the prefix's own. */
  lemma OccursLeft(a: string, t: string, sep: string, j: int)
    requires j + |sep| <= |a|
    ensures Occurs(a + t, sep, j) == Occurs(a, sep, j)
  {
    if 0 <= j {
      assert (a + t)[j..j + |sep|] == a[j..j + |sep|];
    }
  }

  /** A prefix that ends before the first occurrence does not contain the separator. */
  lemma PrefixFree(s: string, sep: string, i: nat)
    requires |sep| > 0 && i <= |s|
    requires forall j :: 0 <= j < i ==> !Occurs(s, sep, j)
    ensures !Contains(s[..i], sep)
  {
    forall j
      ensures !Occurs(s[..i], sep, j)
    {
      if 0 <= j && j + |sep| <= i {
        assert s == s[..i] + s[i..];
        OccursLeft(s[..i], s[i..], sep, j);
      }
    }
  }

  /** Splitting at the first occurrence: the part before it, then the split of the rest. */
  lemma SplitAtFirst(s: string, sep: string, i: nat)
    requires |sep| > 0 && Occurs(s, sep, i)
    requires forall j :: 0 <= j < i ==> !Occurs(s, sep, j)
    ensures Split(s, sep) == [s[..i]] + Split(s[i + |sep|..], sep)
  {
    IndexOfIs(s, sep, i);
  }

  /**
   * Python's `s.split(sep)` for a non-empty separator: cut at every
   * occurrence, scanning left to right. The pieces join back to `s`, and
   * no piece contains the separator.
   */
  function Split(s: string, sep: string): (parts: seq<string>)
    requires |sep| > 0
    ensures |parts| >= 1
    ensures Join(parts, sep) == s
    ensures forall k :: 0 <= k < |parts| ==> !Contains(parts[k], sep)
    decreases |s|
  {
    match IndexOf(s, sep)
    case None => [s]
    case Some(i) =>
      var head := s[..i];
      var rest := Split(s[i + |sep|..], sep);
      PrefixFree(s, sep, i);
      assert s == head + sep + s[i + |sep|..];
      [head] + rest
  }

  /** The number of positions at which `sep` occurs in `s`, overlapping occurrences included. */
  function CountOccurrences(s: string, sep: string): nat
    decreases |s|
  {
    if |s| == 0 then 0
    else (if Occurs(s, sep, 0) then 1 else 0) + CountOccurrences(s[1..], sep)
  }

  /** The elements of `xs` that are not the empty string, in order (`[x for x in xs if x]`). */
  function NonEmpty(xs: seq<string>): seq<string> {
    if |xs| == 0 then []
    else (if xs[0] == "" then [] else [xs[0]]) + NonEmpty(xs[1..])
  }

  /** Filtering distributes over concatenation. */
  lemma {:induction false} NonEmptyAppend(xs: seq<string>, ys: seq<string>)
    ensures NonEmpty(xs + ys) == NonEmpty(xs) + NonEmpty(ys)
    decreases |xs|
  {
    if |xs| == 0 {
      assert xs + ys == ys;
    } else {
      assert (xs + ys)[1..] == xs[1..] + ys;
      NonEmptyAppend(xs[1..], ys);
    }
  }

  /** Filtering a sequence with no empty element keeps it whole. */
  lemma {:induction false} NonEmptyKeeps(xs: seq<string>)
    requires forall k :: 0 <= k < |xs| ==> xs[k] != ""
    ensures NonEmpty(xs) == xs
    decreases |xs|
  {
    if |xs| > 0 {
      NonEmptyKeeps(xs[1..]);
      assert xs == [xs[0]] + xs[1..];
    }
  }

  /** A string none of whose characters is `c` does not contain `[c]`. */
  lemma NoCharNoContains(s: string, c: char)
    requires forall k :: 0 <= k < |s| ==> s[k] != c
    ensures !Contains(s, [c])
  {
    forall j
      ensures !Occurs(s, [c], j)
    {
      if 0 <= j && j + 1 <= |s| {
        assert s[j..j + 1] == [s[j]];
      }
    }
  }

  /** When `a` holds no separator, splitting `a + c + b` cuts exactly at the joint. */
  lemma SplitAtJoint(a: string, c: char, b: string)
    requires !Contains(a, [c])
    ensures Split(a, [c]) == [a]
    ensures Split(a + [c] + b, [c]) == [a] + Split(b, [c])
  {
    var s := a + [c] + b;
    assert s == a + ([c] + b);
    forall j | 0 <= j < |a|
      ensures !Occurs(s, [c], j)
    {
      OccursLeft(a, [c] + b, [c], j);
    }
    assert s[|a|..|a| + 1] == [c];
    SplitAtFirst(s, [c], |a|);
    assert s[..|a|] == a;
    assert s[|a| + 1..] == b;
  }

  /** When `a` holds a separator first at `i`, splitting `a + c + b` first cuts there, as splitting `a` does. */
  lemma SplitBeforeJoint(a: string, c: char, b: string, i: nat)
    requires Occurs(a, [c], i) && forall j :: 0 <= j < i ==> !Occurs(a, [c], j)
    ensures Split(a, [c]) == [a[..i]] + Split(a[i + 1..], [c])
    ensures Split(a + [c] + b, [c]) == [a[..i]] + Split(a[i + 1..] + [c] + b, [c])
  {
    var s := a + [c] + b;
    assert s == a + ([c] + b);
    forall j | 0 <= j <= i
      ensures Occurs(s, [c], j) == Occurs(a, [c], j)
    {
      OccursLeft(a, [c] + b, [c], j);
    }
    SplitAtFirst(s, [c], i);
    SplitAtFirst(a, [c], i);
    assert s[..i] == a[..i];
    assert s[i + 1..] == a[i + 1..] + [c] + b;
  }

  /** Prepending one piece commutes with concatenation. */
  lemma ConsAppend(x: string, t: seq<string>, u: seq<string>)
    ensures [x] + (t + u) == ([x] + t) + u
  {
  }

  /** A separator of one character cannot span the joint: splitting `a + c + b` splits `a` and `b` apart. */
  lemma {:induction false} SplitAtSeparator(a: string, c: char, b: string)
    ensures Split(a + [c] + b, [c]) == Split(a, [c]) + Split(b, [c])
    decreases |a|
  {
    var first := IndexOf(a, [c]);
    if first.None? {
      SplitAtJoint(a, c, b);
    } else {
      var i := first.value;
      var tail := a[i + 1..];
      SplitAtSeparator(tail, c, b);
      SplitBeforeJoint(a, c, b, i);
      ConsAppend(a[..i], Split(tail, [c]), Split(b, [c]));
    }
  }

  /** Splitting on a one-character separator undoes joining pieces that do not contain it. */
  lemma {:induction false} SplitJoin(parts: seq<string>, c: char)
    requires |parts| >= 1
    requires forall k :: 0 <= k < |parts| ==> !Contains(parts[k], [c])
    ensures Split(Join(parts, [c]), [c]) == parts
    decreases |parts|
  {
    if |parts| == 1 {
      assert IndexOf(parts[0], [c]).None?;
    } else {
      SplitJoin(parts[1..], c);
      SplitAtSeparator(parts[0], c, Join(parts[1..], [c]));
      assert IndexOf(parts[0], [c]).None?;
      assert parts == [parts[0]] + parts[1..];
    }
  }
}

=== FILE: venv.dfy ===
/**
 * The virtual-environment side of bazel_python_venv.py: where the
 * environment and its site-packages live (lines 17-19), the configuration
 * derived from `bazel info` (lines 53-57), the alias name (lines 85-88), and
 * the linking part of `run` (lines 182-185).
 */
module Venv {
  import opened Wrappers
  import opened FileSystem
  import opened BazelInfo
  import opened PipLinks
  import opened Walks

  /** `<cwd>/.local/python_venv`. */
  function VenvPath(cwd: Path): Path {
    cwd + [".local", "python_venv"]
  }

  /** `<cwd>/.local/python_venv/lib/python3.7/site-packages`. */
  function SitePackages(cwd: Path): Path {
    VenvPath(cwd) + ["lib", "python3.7", "site-packages"]
  }

  /** The paths the drivers work from. */
  datatype Config = Config(external: Path, libraries: Path, projectName: string)

  /** `output_base/external`, `execution_root/python/libraries` and the name of the execution root. */
  function ConfigOf(conf: BazelConf): Config {
    var executionRoot := ParsePath(conf.executionRoot);
    Config(
      ParsePath(conf.outputBase) + ["external"],
      executionRoot + ["python", "libraries"],
      Name(executionRoot))
  }

  /** When `bazel info` reports well-formed absolute paths, the drivers start from exactly those paths. */
  lemma ConfigOfPaths(outputBase: Path, executionRoot: Path, workspace: string)
    requires forall k :: 0 <= k < |outputBase| ==> ProperName(outputBase[k])
    requires forall k :: 0 <= k < |executionRoot| ==> ProperName(executionRoot[k])
    ensures var config := ConfigOf(BazelConf(PathString(outputBase), PathString(executionRoot), workspace));
      && config.external == outputBase + ["external"]
      && config.libraries == executionRoot + ["python", "libraries"]
      && config.projectName == Name(executionRoot)
  {
    PathStringRoundTrip(outputBase);
    PathStringRoundTrip(executionRoot);
  }

  /** Python's `s[-6:]`. */
  function Last6(s: string): (r: string)
    ensures |r| == if |s| < 6 then |s| else 6
    ensures s == s[..|s| - |r|] + r
  {
    if |s| <= 6 then s else s[|s| - 6..]
  }

  /** `'{}-{}'.format(project_name, digest[-6:])`. */
  function AliasName(projectName: string, digest: string): string {
    projectName + "-" + Last6(digest)
  }

  /**
   * `~/.virtualenvs/<alias>`, where the digest is the SHA-256 hex digest of
   * the working directory's path string; the hash is a parameter.
   */
  function AliasPath(home: Path, cwd: Path, projectName: string, sha256Hex: string -> string): (r: Path)
    ensures |r| == |home| + 2 && r[..|home|] == home
    ensures Parent(r) == home + [".virtualenvs"]
    ensures Name(r) == AliasName(projectName, sha256Hex(PathString(cwd)))
  {
    Child(Child(home, ".virtualenvs"), AliasName(projectName, sha256Hex(PathString(cwd))))
  }

  /**
   * For full hex digests the alias name splits back into the project name and
   * the last six digest characters, so two aliases are equal exactly when both
   * the project names and those six characters are.
   */
  lemma AliasNameInjective(p1: string, d1: string, p2: string, d2: string)
    requires |d1| >= 6 && |d2| >= 6
    ensures AliasName(p1, d1) == AliasName(p2, d2) <==> p1 == p2 && Last6(d1) == Last6(d2)
  {
    var a1 := AliasName(p1, d1);
    var a2 := AliasName(p2, d2);
    if a1 == a2 {
      assert |p1| == |p2|;
      assert a1[..|p1|] == p1;
      assert a2[..|p2|] == p2;
      assert a1[|p1| + 1..] == Last6(d1);
      assert a2[|p2| + 1..] == Last6(d2);
    }
  }

  /**
   * Two working directories share an alias in `~/.virtualenvs` exactly when
   * their projects have the same name and the last six characters of their
   * path strings' digests agree.
   */
  lemma AliasPathInjective(home: Path, cwd1: Path, p1: string, cwd2: Path, p2: string, sha256Hex: string -> string)
    requires |sha256Hex(PathString(cwd1))| >= 6 && |sha256Hex(PathString(cwd2))| >= 6
    ensures AliasPath(home, cwd1, p1, sha256Hex) == AliasPath(home, cwd2, p2, sha256Hex)
      <==> p1 == p2 && Last6(sha256Hex(PathString(cwd1))) == Last6(sha256Hex(PathString(cwd2)))
  {
    var d1, d2 := sha256Hex(PathString(cwd1)), sha256Hex(PathString(cwd2));
    AliasNameInjective(p1, d1, p2, d2);
    var a1, a2 := AliasPath(home, cwd1, p1, sha256Hex), AliasPath(home, cwd2, p2, sha256Hex);
    if a1 == a2 {
      assert Name(a1) == Name(a2);
    }
  }

  /** Neither path lies at or below the other. */
  predicate Disjoint(a: Path, b: Path) {
    !(a <= b) && !(b <= a)
  }

  /**
   * The linking part of `run()`: the package walk, then, with `--lib`, the
   * library walk, each folding `copy_to_pip` over its calls; the first
   * exception aborts the run.
   */
  function Run(fs: FileSystem, listdir: Listing, cwd: Path, config: Config, includeLibraries: bool): (r: Result<FileSystem, OsError>)
    ensures r.Success? ==> forall p :: (|p| == 0 || Parent(p) != SitePackages(cwd)) ==>
      (p in r.value <==> p in fs) && (p in r.value ==> r.value[p] == fs[p])
    ensures r.Success? && WellFormed(fs) ==> WellFormed(r.value)
    ensures !IsDir(fs, config.external) ==> r == Failure(NotADirectory(config.external))
  {
    var sp := SitePackages(cwd);
    var packages :- PackageCalls(fs, listdir, config.external);
    var fs1 :- LinkAll(fs, sp, packages);
    assert forall p :: (|p| == 0 || Parent(p) != sp) ==> (p in fs1 <==> p in fs) && (p in fs1 ==> fs1[p] == fs[p]) by {
      forall p | |p| == 0 || Parent(p) != sp
        ensures (p in fs1 <==> p in fs) && (p in fs1 ==> fs1[p] == fs[p])
      {
        WalkDepth(fs, listdir, config.external);
        DstsAreChildren(sp, packages, p);
        LinkAllFrame(fs, sp, packages, p);
      }
    }
    assert WellFormed(fs) ==> WellFormed(fs1) by {
      if WellFormed(fs) {
        LinkAllKeepsWellFormed(fs, sp, packages);
      }
    }
    if !includeLibraries then Success(fs1)
    else
      var libraries :- LibCalls(fs1, listdir, config.libraries);
      var r := LinkAll(fs1, sp, libraries);
      assert r.Success? ==> forall p :: (|p| == 0 || Parent(p) != sp) ==>
        (p in r.value <==> p in fs1) && (p in r.value ==> r.value[p] == fs1[p]) by {
        if r.Success? {
          forall p | |p| == 0 || Parent(p) != sp
            ensures (p in r.value <==> p in fs1) && (p in r.value ==> r.value[p] == fs1[p])
          {
            WalkDepth(fs1, listdir, config.libraries);
            DstsAreChildren(sp, libraries, p);
            LinkAllFrame(fs1, sp, libraries, p);
          }
        }
      }
      assert r.Success? && WellFormed(fs1) ==> WellFormed(r.value) by {
        if r.Success? && WellFormed(fs1) {
          LinkAllKeepsWellFormed(fs1, sp, libraries);
        }
      }
      r
  }

  /** No link lands at or below `root` when site-packages lies outside it. */
  lemma DstsOutside(sitePackages: Path, calls: seq<Call>, root: Path, p: Path)
    requires Disjoint(sitePackages, root) && root <= p
    requires forall i :: 0 <= i < |calls| ==> |calls[i].directory| > 0
    ensures forall i :: 0 <= i < |calls| ==> Dst(sitePackages, calls[i].directory) != p
  {
    forall i | 0 <= i < |calls|
      ensures Dst(sitePackages, calls[i].directory) != p
    {
      var dst := Dst(sitePackages, calls[i].directory);
      assert dst[..|sitePackages|] == sitePackages;
      assert !(root <= dst) by {
        if |root| <= |sitePackages| {
          assert dst[..|root|] == sitePackages[..|root|];
        }
      }
    }
  }

  /**
   * Linking into a site-packages directory that lies outside a walk's root
   * leaves both walks from that root unchanged. The drivers are lazy
   * generators whose links are made while the walk is still going; this is
   * why the walk can be computed first and the links folded afterwards.
   */
  lemma LinkingKeepsWalks(fs: FileSystem, listdir: Listing, sitePackages: Path, calls: seq<Call>, root: Path)
    requires Disjoint(sitePackages, root)
    requires forall i :: 0 <= i < |calls| ==> |calls[i].directory| > 0
    requires LinkAll(fs, sitePackages, calls).Success?
    ensures var fs' := LinkAll(fs, sitePackages, calls).value;
      && PackageCalls(fs', listdir, root) == PackageCalls(fs, listdir, root)
      && LibCalls(fs', listdir, root) == LibCalls(fs, listdir, root)
  {
    var fs' := LinkAll(fs, sitePackages, calls).value;
    forall p | root <= p
      ensures IsDir(fs', p) == IsDir(fs, p)
    {
      DstsOutside(sitePackages, calls, root, p);
      LinkAllFrame(fs, sitePackages, calls, p);
    }
    WalksAreLocal(fs', fs, listdir, root);
  }

  /** Site-packages itself survives any fold of calls on named directories. */
  lemma SitePackagesStays(fs: FileSystem, sitePackages: Path, calls: seq<Call>)
    requires |sitePackages| > 0
    requires forall i :: 0 <= i < |calls| ==> |calls[i].directory| > 0
    requires LinkAll(fs, sitePackages, calls).Success?
    ensures IsDir(LinkAll(fs, sitePackages, calls).value, sitePackages) == IsDir(fs, sitePackages)
  {
    assert |Parent(sitePackages)| != |sitePackages|;
    DstsAreChildren(sitePackages, calls, sitePackages);
    LinkAllFrame(fs, sitePackages, calls, sitePackages);
  }

  /** Every call of the package walk is on a named directory other than a site-packages outside `external`. */
  lemma PackageCallsSeparate(fs: FileSystem, listdir: Listing, external: Path, sitePackages: Path)
    requires IsDir(fs, external) && Disjoint(sitePackages, external)
    ensures Separate(sitePackages, PackageCalls(fs, listdir, external).value)
  {
    var calls := PackageCalls(fs, listdir, external).value;
    forall i | 0 <= i < |calls|
      ensures |calls[i].directory| > 0 && calls[i].directory != sitePackages
    {
      assert calls[i] in calls;
      assert external <= calls[i].directory;
    }
  }

  /** Every call of the library walk is on a named directory other than a site-packages outside `libraries`. */
  lemma LibCallsSeparate(fs: FileSystem, listdir: Listing, libraries: Path, sitePackages: Path)
    requires IsDir(fs, libraries) && Disjoint(sitePackages, libraries)
    ensures Separate(sitePackages, LibCalls(fs, listdir, libraries).value)
  {
    var calls := LibCalls(fs, listdir, libraries).value;
    forall i | 0 <= i < |calls|
      ensures |calls[i].directory| > 0 && calls[i].directory != sitePackages
    {
      assert calls[i] in calls;
      assert libraries <= calls[i].directory;
    }
  }

  /** `d` is a pip package: three levels below `external`, a directory, under a pip-marked repository. */
  predicate PipPackage(fs: FileSystem, external: Path, d: Path) {
    && |d| == |external| + 3
    && d[..|external|] == external
    && IsDir(fs, d)
    && PipMarked(d[..|external| + 1])
  }

  /** `d` is a pip package without a BUILD file, and no other such package has its name. */
  ghost predicate UniquePipPackage(fs: FileSystem, external: Path, d: Path) {
    && PipPackage(fs, external, d)
    && Child(d, BuildFile) !in fs
    && forall e :: PipPackage(fs, external, e) && Child(e, BuildFile) !in fs && Name(e) == Name(d) ==> e == d
  }

  /** `d` is a library package: `libraries/<x>/src/<n>`, a directory. */
  predicate LibraryPackage(fs: FileSystem, libraries: Path, d: Path) {
    && |d| == |libraries| + 3
    && d[..|libraries|] == libraries
    && d[|libraries| + 1] == SrcDir
    && IsDir(fs, d)
  }

  /** `d` is a library package and no other library package has its name. */
  ghost predicate UniqueLibraryPackage(fs: FileSystem, libraries: Path, d: Path) {
    && LibraryPackage(fs, libraries, d)
    && forall e :: LibraryPackage(fs, libraries, e) && Name(e) == Name(d) ==> e == d
  }

  /** The package walk makes the call on a unique pip package, and no other unguarded call with its name. */
  lemma PackageCallUnique(fs: FileSystem, listdir: Listing, external: Path, d: Path) returns (k: nat)
    requires WellFormed(fs) && ListsEntries(fs, listdir) && IsDir(fs, external)
    requires UniquePipPackage(fs, external, d)
    ensures var calls := PackageCalls(fs, listdir, external).value;
      && k < |calls| && calls[k] == Call(d, false)
      && forall i :: 0 <= i < |calls| && !Skipped(fs, calls[i]) && Name(calls[i].directory) == Name(d) ==>
        calls[i].directory == d
  {
    var calls := PackageCalls(fs, listdir, external).value;
    PackageWalkExact(fs, listdir, external, Call(d, false));
    k :| 0 <= k < |calls| && calls[k] == Call(d, false);
    forall i | 0 <= i < |calls| && !Skipped(fs, calls[i]) && Name(calls[i].directory) == Name(d)
      ensures calls[i].directory == d
    {
      PackageWalkExact(fs, listdir, external, calls[i]);
      assert PipPackage(fs, external, calls[i].directory);
    }
  }

  /** The library walk makes the call on a unique library package, and no other call with its name. */
  lemma LibCallUnique(fs: FileSystem, listdir: Listing, libraries: Path, d: Path) returns (k: nat)
    requires WellFormed(fs) && ListsEntries(fs, listdir) && IsDir(fs, libraries)
    requires UniqueLibraryPackage(fs, libraries, d)
    ensures var calls := LibCalls(fs, listdir, libraries).value;
      && k < |calls| && calls[k] == Call(d, true)
      && forall i :: 0 <= i < |calls| && Name(calls[i].directory) == Name(d) ==> calls[i].directory == d
  {
    var calls := LibCalls(fs, listdir, libraries).value;
    LibraryWalkExact(fs, listdir, libraries, Call(d, true));
    k :| 0 <= k < |calls| && calls[k] == Call(d, true);
    forall i | 0 <= i < |calls| && Name(calls[i].directory) == Name(d)
      ensures calls[i].directory == d
    {
      LibraryWalkExact(fs, listdir, libraries, calls[i]);
      assert LibraryPackage(fs, libraries, calls[i].directory);
    }
  }

  /**
   * A pip package without a BUILD file, whose name is not reserved and that
   * no other such package shares, ends up linked: after a successful run,
   * `site-packages/<n>` is a symbolic link to it. With `--lib` this needs no
   * library package of the same name, whose link would replace it.
   */
  lemma PipPackageLinked(fs: FileSystem, listdir: Listing, cwd: Path, config: Config, d: Path, includeLibraries: bool)
    requires WellFormed(fs) && ListsEntries(fs, listdir)
    requires IsDir(fs, SitePackages(cwd)) && IsDir(fs, config.external)
    requires Disjoint(SitePackages(cwd), config.external)
    requires UniquePipPackage(fs, config.external, d) && Name(d) !in Reserved
    requires includeLibraries ==>
      && IsDir(fs, config.libraries) && Disjoint(SitePackages(cwd), config.libraries)
      && forall e :: LibraryPackage(fs, config.libraries, e) ==> Name(e) != Name(d)
    requires Run(fs, listdir, cwd, config, includeLibraries).Success?
    ensures var dst := Child(SitePackages(cwd), Name(d));
      var fs' := Run(fs, listdir, cwd, config, includeLibraries).value;
      dst in fs' && fs'[dst] == Symlink(d)
  {
    var sp := SitePackages(cwd);
    var packages := PackageCalls(fs, listdir, config.external).value;
    assert LinkAll(fs, sp, packages).Success?;
    PackageCallsSeparate(fs, listdir, config.external, sp);
    var k := PackageCallUnique(fs, listdir, config.external, d);
    UniqueCallLinked(fs, sp, packages, k);
    if includeLibraries {
      LibrariesKeepPipLink(fs, listdir, cwd, config, d);
    } else {
      assert Run(fs, listdir, cwd, config, false) == LinkAll(fs, sp, packages);
    }
  }

  /**
   * The library fold of a `--lib` run leaves `site-packages/<n>` as the
   * package walk left it when no library package is named `<n>`.
   */
  lemma LibrariesKeepPipLink(fs: FileSystem, listdir: Listing, cwd: Path, config: Config, d: Path)
    requires WellFormed(fs) && ListsEntries(fs, listdir)
    requires IsDir(fs, config.libraries) && Disjoint(SitePackages(cwd), config.libraries)
    requires forall e :: LibraryPackage(fs, config.libraries, e) ==> Name(e) != Name(d)
    requires Run(fs, listdir, cwd, config, true).Success?
    ensures var sp := SitePackages(cwd);
      var packages := PackageCalls(fs, listdir, config.external).value;
      var dst := Child(sp, Name(d));
      var fs1 := LinkAll(fs, sp, packages).value;
      var fs' := Run(fs, listdir, cwd, config, true).value;
      (dst in fs' <==> dst in fs1) && (dst in fs' ==> fs'[dst] == fs1[dst])
  {
    var sp := SitePackages(cwd);
    var libraries := config.libraries;
    var packages := PackageCalls(fs, listdir, config.external).value;
    var fs1 := LinkAll(fs, sp, packages).value;
    WalkDepth(fs, listdir, config.external);
    LinkingKeepsWalks(fs, listdir, sp, packages, libraries);
    var libs := LibCalls(fs, listdir, libraries).value;
    assert Run(fs, listdir, cwd, config, true) == LinkAll(fs1, sp, libs);
    var dst := Child(sp, Name(d));
    forall i | 0 <= i < |libs|
      ensures Dst(sp, libs[i].directory) != dst
    {
      LibraryWalkExact(fs, listdir, libraries, libs[i]);
      assert LibraryPackage(fs, libraries, libs[i].directory);
      assert Child(sp, Name(libs[i].directory))[|sp|] != dst[|sp|];
    }
    LinkAllFrame(fs1, sp, libs, dst);
  }

  /**
   * A library package whose name is not reserved and that no other library
   * package shares ends up linked: after a successful run with `--lib`,
   * `site-packages/<n>` is a symbolic link to it, whatever the package walk
   * linked before.
   */
  lemma LibraryPackageLinked(fs: FileSystem, listdir: Listing, cwd: Path, config: Config, d: Path)
    requires WellFormed(fs) && ListsEntries(fs, listdir)
    requires IsDir(fs, SitePackages(cwd)) && IsDir(fs, config.libraries)
    requires Disjoint(SitePackages(cwd), config.libraries)
    requires UniqueLibraryPackage(fs, config.libraries, d) && Name(d) !in Reserved
    requires Run(fs, listdir, cwd, config, true).Success?
    ensures var dst := Child(SitePackages(cwd), Name(d));
      var fs' := Run(fs, listdir, cwd, config, true).value;
      dst in fs' && fs'[dst] == Symlink(d)
  {
    var sp := SitePackages(cwd);
    var libraries := config.libraries;
    var packages := PackageCalls(fs, listdir, config.external).value;
    var fs1 := LinkAll(fs, sp, packages).value;
    WalkDepth(fs, listdir, config.external);
    LinkingKeepsWalks(fs, listdir, sp, packages, libraries);
    SitePackagesStays(fs, sp, packages);
    var libs := LibCalls(fs, listdir, libraries).value;
    assert Run(fs, listdir, cwd, config, true) == LinkAll(fs1, sp, libs);
    LibCallsSeparate(fs, listdir, libraries, sp);
    var k := LibCallUnique(fs, listdir, libraries, d);
    UniqueCallLinked(fs1, sp, libs, k);
  }

  /**
   * With `--lib`, and site-packages outside both roots, the run is one fold:
   * the package walk's calls followed by the library walk's, both walks taken
   * on the starting state.
   */
  lemma RunIsOneFold(fs: FileSystem, listdir: Listing, cwd: Path, config: Config)
    requires Disjoint(SitePackages(cwd), config.external) && Disjoint(SitePackages(cwd), config.libraries)
    requires IsDir(fs, config.external) && IsDir(fs, config.libraries)
    ensures var calls := PackageCalls(fs, listdir, config.external).value + LibCalls(fs, listdir, config.libraries).value;
      && Separate(SitePackages(cwd), calls)
      && Run(fs, listdir, cwd, config, true) == LinkAll(fs, SitePackages(cwd), calls)
  {
    var sp := SitePackages(cwd);
    var packages := PackageCalls(fs, listdir, config.external).value;
    var libs := LibCalls(fs, listdir, config.libraries).value;
    PackageCallsSeparate(fs, listdir, config.external, sp);
    LibCallsSeparate(fs, listdir, config.libraries, sp);
    SeparateAppend(sp, packages, libs);
    LinkAllAppend(fs, sp, packages, libs);
    var first := LinkAll(fs, sp, packages);
    if first.Success? {
      WalkDepth(fs, listdir, config.external);
      LinkingKeepsWalks(fs, listdir, sp, packages, config.libraries);
      assert Run(fs, listdir, cwd, config, true) == LinkAll(first.value, sp, libs);
    }
  }

  /** Without `--lib`, running the linking twice is running it once. */
  lemma PackageRunIdempotent(fs: FileSystem, listdir: Listing, cwd: Path, config: Config)
    requires Disjoint(SitePackages(cwd), config.external)
    requires Run(fs, listdir, cwd, config, false).Success?
    ensures Run(Run(fs, listdir, cwd, config, false).value, listdir, cwd, config, false) ==
      Run(fs, listdir, cwd, config, false)
  {
    var sp := SitePackages(cwd);
    var packages := PackageCalls(fs, listdir, config.external).value;
    WalkDepth(fs, listdir, config.external);
    PackageCallsSeparate(fs, listdir, config.external, sp);
    LinkingKeepsWalks(fs, listdir, sp, packages, config.external);
    LinkAllIdempotent(fs, sp, packages);
  }

  /**
   * Running the linking twice is running it once: when site-packages lies
   * outside the walked roots, a second run over the first run's result
   * succeeds and leaves it as it is.
   */
  lemma RunIdempotent(fs: FileSystem, listdir: Listing, cwd: Path, config: Config, includeLibraries: bool)
    requires Disjoint(SitePackages(cwd), config.external)
    requires includeLibraries ==> Disjoint(SitePackages(cwd), config.libraries)
    requires Run(fs, listdir, cwd, config, includeLibraries).Success?
    ensures Run(Run(fs, listdir, cwd, config, includeLibraries).value, listdir, cwd, config, includeLibraries) ==
      Run(fs, listdir, cwd, config, includeLibraries)
  {
    if !includeLibraries {
      PackageRunIdempotent(fs, listdir, cwd, config);
      return;
    }
    var sp := SitePackages(cwd);
    var packages := PackageCalls(fs, listdir, config.external).value;
    var fs1 := LinkAll(fs, sp, packages).value;
    WalkDepth(fs, listdir, config.external);
    LinkingKeepsWalks(fs, listdir, sp, packages, config.libraries);
    assert IsDir(fs, config.libraries);
    RunIsOneFold(fs, listdir, cwd, config);
    var all := packages + LibCalls(fs, listdir, config.libraries).value;
    var fs2 := LinkAll(fs, sp, all).value;
    LinkAllIdempotent(fs, sp, all);
    assert forall i :: 0 <= i < |all| ==> |all[i].directory| > 0;
    LinkingKeepsWalks(fs, listdir, sp, all, config.external);
    LinkingKeepsWalks(fs, listdir, sp, all, config.libraries);
    RunIsOneFold(fs2, listdir, cwd, config);
  }
}

=== FILE: walks.dfy ===
/**
 * The two traversal drivers: `link_packages_into_python_venv`
 * (bazel_python_venv.py, lines 114-133) and `link_libs` (lines 136-148),
 * each modelled as the sequence of `copy_to_pip` calls it makes.
 */
module Walks {
  import opened Wrappers
  import opened Strings
  import opened FileSystem
  import opened PipLinks

  /** The substring that marks a first-level external repository as pip-managed. */
  const PipMarker: string := "_pip_"

  /** The directory of a library that holds its importable packages. */
  const SrcDir: string := "src"

  /** `os.listdir`: the entries of each directory, in the order the OS returns them. */
  type Listing = Path -> seq<string>

  /** `'_pip_' in str(p)`: the test is on the whole path string, not on the last name. */
  predicate PipMarked(p: Path) {
    Contains(PathString(p), PipMarker)
  }

  /** `p` is produced by listing its parent and passes `os.path.isdir`. */
  predicate Enumerated(fs: FileSystem, listdir: Listing, p: Path) {
    |p| > 0 && Name(p) in listdir(Parent(p)) && IsDir(fs, p)
  }

  /** The listing is the filesystem's: a directory lists exactly the names of its entries. */
  ghost predicate ListsEntries(fs: FileSystem, listdir: Listing) {
    forall d, n :: IsDir(fs, d) ==> (n in listdir(d) <==> Child(d, n) in fs)
  }

  /** `(d / i for i in names if os.path.isdir(d / i))`. */
  function Children(fs: FileSystem, d: Path, names: seq<string>): (r: seq<Path>)
    ensures forall p :: p in r <==> |p| > 0 && Parent(p) == d && Name(p) in names && IsDir(fs, p)
    decreases |names|
  {
    if |names| == 0 then []
    else
      var rest := Children(fs, d, names[1..]);
      var first := Child(d, names[0]);
      var r := (if IsDir(fs, first) then [first] else []) + rest;
      assert forall p :: p in r <==> |p| > 0 && Parent(p) == d && Name(p) in names && IsDir(fs, p) by {
        forall p
          ensures p in r <==> |p| > 0 && Parent(p) == d && Name(p) in names && IsDir(fs, p)
        {
          assert names == [names[0]] + names[1..];
          if |p| > 0 && Parent(p) == d {
            ChildName(d, p);
          }
        }
      }
      r
  }

  /** The subdirectories of `d`, in listing order. */
  function SubDirs(fs: FileSystem, listdir: Listing, d: Path): (r: seq<Path>)
    ensures forall p :: p in r <==> Enumerated(fs, listdir, p) && Parent(p) == d
  {
    Children(fs, d, listdir(d))
  }

  /** One `copy_to_pip(dir, copyFromSrc)` call per directory, in order. */
  function Links(dirs: seq<Path>, copyFromSrc: bool): (r: seq<Call>)
    ensures forall c :: c in r <==> c.directory in dirs && c.copyFromSrc == copyFromSrc
    decreases |dirs|
  {
    if |dirs| == 0 then []
    else [Call(dirs[0], copyFromSrc)] + Links(dirs[1..], copyFromSrc)
  }

  /** The innermost loop of the package walk (lines 128-133), over each second-level directory. */
  function PackageLevel3(fs: FileSystem, listdir: Listing, dirs2: seq<Path>): (r: seq<Call>)
    ensures forall c :: c in r <==>
      !c.copyFromSrc && Enumerated(fs, listdir, c.directory) && Parent(c.directory) in dirs2
    decreases |dirs2|
  {
    if |dirs2| == 0 then []
    else Links(SubDirs(fs, listdir, dirs2[0]), false) + PackageLevel3(fs, listdir, dirs2[1..])
  }

  /** The middle loop (lines 123-127), over each first-level directory. */
  function PackageLevel2(fs: FileSystem, listdir: Listing, dirs1: seq<Path>): (r: seq<Call>)
    ensures forall c :: c in r <==>
      && !c.copyFromSrc
      && Enumerated(fs, listdir, c.directory)
      && Enumerated(fs, listdir, Parent(c.directory))
      && Parent(Parent(c.directory)) in dirs1
    decreases |dirs1|
  {
    if |dirs1| == 0 then []
    else PackageLevel3(fs, listdir, SubDirs(fs, listdir, dirs1[0])) + PackageLevel2(fs, listdir, dirs1[1..])
  }

  /** The outer loop (lines 116-122): first-level directories whose path string is not pip-marked are skipped. */
  function PackageLevel1(fs: FileSystem, listdir: Listing, dirs: seq<Path>): (r: seq<Call>)
    ensures forall c :: c in r <==>
      && !c.copyFromSrc
      && Enumerated(fs, listdir, c.directory)
      && Enumerated(fs, listdir, Parent(c.directory))
      && Parent(Parent(c.directory)) in dirs
      && PipMarked(Parent(Parent(c.directory)))
    decreases |dirs|
  {
    if |dirs| == 0 then []
    else
      (if PipMarked(dirs[0]) then PackageLevel2(fs, listdir, [dirs[0]]) else [])
        + PackageLevel1(fs, listdir, dirs[1..])
  }

  /** `d` is a pip-package directory: three levels below `external`, each level listed and a directory, under a pip-marked first level. */
  predicate PackageDir(fs: FileSystem, listdir: Listing, external: Path, d: Path) {
    && |d| == |external| + 3
    && d[..|external|] == external
    && Enumerated(fs, listdir, d[..|external| + 1])
    && Enumerated(fs, listdir, d[..|external| + 2])
    && Enumerated(fs, listdir, d)
    && PipMarked(d[..|external| + 1])
  }

  /**
   * `link_packages_into_python_venv`: the calls `copy_to_pip(d, False)` it
   * makes, in order. Listing `output_base/external` raises when it is not a
   * directory.
   */
  function PackageCalls(fs: FileSystem, listdir: Listing, external: Path): (r: Result<seq<Call>, OsError>)
    ensures r.Failure? <==> !IsDir(fs, external)
    ensures r.Failure? ==> r.error == NotADirectory(external)
    ensures r.Success? ==> forall c :: c in r.value <==> !c.copyFromSrc && PackageDir(fs, listdir, external, c.directory)
  {
    if !IsDir(fs, external) then Failure(NotADirectory(external))
    else
      var calls := PackageLevel1(fs, listdir, SubDirs(fs, listdir, external));
      assert forall c :: c in calls <==> !c.copyFromSrc && PackageDir(fs, listdir, external, c.directory) by {
        forall c
          ensures c in calls <==> !c.copyFromSrc && PackageDir(fs, listdir, external, c.directory)
        {
          var d := c.directory;
          if |d| == |external| + 3 {
            assert Parent(d) == d[..|external| + 2];
            assert Parent(Parent(d)) == d[..|external| + 1];
            assert Parent(Parent(Parent(d))) == d[..|external|];
          }
          if |d| >= 2 && Enumerated(fs, listdir, Parent(Parent(d))) && Parent(Parent(Parent(d))) == external {
            assert |d| == |external| + 3;
          }
        }
      }
      Success(calls)
  }

  /** `d` is a package of an in-repo library: `libraries/<x>/src/<d>`, with `<x>` listed and `src` and `d` directories. */
  predicate LibraryDir(fs: FileSystem, listdir: Listing, libraries: Path, d: Path) {
    && |d| == |libraries| + 3
    && d[..|libraries|] == libraries
    && d[|libraries|] in listdir(libraries)
    && d[|libraries| + 1] == SrcDir
    && IsDir(fs, d[..|libraries| + 2])
    && Enumerated(fs, listdir, d)
  }

  /** The calls for one listed name `x`: one per subdirectory of `libraries/x/src`, none when `src` is not a directory. */
  function LibEntry(fs: FileSystem, listdir: Listing, libraries: Path, name: string): seq<Call> {
    var src := Child(Child(libraries, name), SrcDir);
    if IsDir(fs, src) then Links(SubDirs(fs, listdir, src), true) else []
  }

  /** The calls for name `x` are those on the library packages found under `x`. */
  lemma LibEntryCalls(fs: FileSystem, listdir: Listing, libraries: Path, name: string)
    requires name in listdir(libraries)
    ensures forall c :: c in LibEntry(fs, listdir, libraries, name) <==>
      c.copyFromSrc && LibraryDir(fs, listdir, libraries, c.directory) && c.directory[|libraries|] == name
  {
    var src := Child(Child(libraries, name), SrcDir);
    forall c
      ensures c in LibEntry(fs, listdir, libraries, name) <==>
        c.copyFromSrc && LibraryDir(fs, listdir, libraries, c.directory) && c.directory[|libraries|] == name
    {
      var d := c.directory;
      if |d| == |libraries| + 3 {
        assert Parent(d) == d[..|libraries| + 2];
        if d[..|libraries|] == libraries && d[|libraries|] == name && d[|libraries| + 1] == SrcDir {
          assert d[..|libraries| + 2] == src;
        }
      }
      if |d| > 0 && Parent(d) == src {
        assert |d| == |libraries| + 3;
        assert d[..|libraries| + 2] == src;
        assert src[..|libraries|] == libraries;
      }
    }
  }

  /** The loop of lines 139-148 over the listed names: entries without a `src` directory are skipped. */
  function LibLevel(fs: FileSystem, listdir: Listing, libraries: Path, names: seq<string>): (r: seq<Call>)
    requires forall n :: n in names ==> n in listdir(libraries)
    ensures forall c :: c in r <==>
      && c.copyFromSrc
      && LibraryDir(fs, listdir, libraries, c.directory)
      && c.directory[|libraries|] in names
    decreases |names|
  {
    if |names| == 0 then []
    else
      LibEntryCalls(fs, listdir, libraries, names[0]);
      assert forall n :: n in names <==> n == names[0] || n in names[1..];
      LibEntry(fs, listdir, libraries, names[0]) + LibLevel(fs, listdir, libraries, names[1..])
  }

  /**
   * `link_libs`: the calls `copy_to_pip(d, True)` it makes, in order.
   * Listing `execution_root/python/libraries` raises when it is not a
   * directory.
   */
  function LibCalls(fs: FileSystem, listdir: Listing, libraries: Path): (r: Result<seq<Call>, OsError>)
    ensures r.Failure? <==> !IsDir(fs, libraries)
    ensures r.Failure? ==> r.error == NotADirectory(libraries)
    ensures r.Success? ==> forall c :: c in r.value <==> c.copyFromSrc && LibraryDir(fs, listdir, libraries, c.directory)
  {
    if !IsDir(fs, libraries) then Failure(NotADirectory(libraries))
    else Success(LibLevel(fs, listdir, libraries, listdir(libraries)))
  }

  /** Both walks pass only directories exactly three levels below their root. */
  lemma WalkDepth(fs: FileSystem, listdir: Listing, root: Path)
    ensures PackageCalls(fs, listdir, root).Success? ==>
      var calls := PackageCalls(fs, listdir, root).value;
      forall i :: 0 <= i < |calls| ==> |calls[i].directory| == |root| + 3
    ensures LibCalls(fs, listdir, root).Success? ==>
      var calls := LibCalls(fs, listdir, root).value;
      forall i :: 0 <= i < |calls| ==> |calls[i].directory| == |root| + 3
  {
    if PackageCalls(fs, listdir, root).Success? {
      var calls := PackageCalls(fs, listdir, root).value;
      assert forall i :: 0 <= i < |calls| ==> calls[i] in calls;
    }
    if LibCalls(fs, listdir, root).Success? {
      var calls := LibCalls(fs, listdir, root).value;
      assert forall i :: 0 <= i < |calls| ==> calls[i] in calls;
    }
  }

  /** With a faithful listing of a real filesystem, "listed and a directory" is just "a directory". */
  lemma EnumeratedIsDir(fs: FileSystem, listdir: Listing, p: Path)
    requires WellFormed(fs) && ListsEntries(fs, listdir) && |p| > 0
    ensures Enumerated(fs, listdir, p) <==> IsDir(fs, p)
  {
    if IsDir(fs, p) {
      assert IsDir(fs, Parent(p));
      assert Child(Parent(p), Name(p)) == p;
    }
  }

  /**
   * On a real filesystem listed faithfully, the package walk calls
   * `copy_to_pip(d, False)` exactly on the directories `d` three levels below
   * `external` whose first-level ancestor has a pip-marked path string: never
   * on a first- or second-level directory, never on a non-directory.
   */
  lemma PackageWalkExact(fs: FileSystem, listdir: Listing, external: Path, c: Call)
    requires WellFormed(fs) && ListsEntries(fs, listdir) && IsDir(fs, external)
    ensures c in PackageCalls(fs, listdir, external).value <==>
      && !c.copyFromSrc
      && |c.directory| == |external| + 3
      && c.directory[..|external|] == external
      && IsDir(fs, c.directory)
      && PipMarked(c.directory[..|external| + 1])
  {
    var d := c.directory;
    if |d| == |external| + 3 {
      EnumeratedIsDir(fs, listdir, d);
      EnumeratedIsDir(fs, listdir, d[..|external| + 1]);
      EnumeratedIsDir(fs, listdir, d[..|external| + 2]);
      if IsDir(fs, d) {
        AncestorsAreDirs(fs, d, |external| + 1);
        AncestorsAreDirs(fs, d, |external| + 2);
      }
    }
  }

  /**
   * On a real filesystem listed faithfully, the library walk calls
   * `copy_to_pip(d, True)` exactly on the directories `libraries/<x>/src/<d>`.
   */
  lemma LibraryWalkExact(fs: FileSystem, listdir: Listing, libraries: Path, c: Call)
    requires WellFormed(fs) && ListsEntries(fs, listdir) && IsDir(fs, libraries)
    ensures c in LibCalls(fs, listdir, libraries).value <==>
      && c.copyFromSrc
      && |c.directory| == |libraries| + 3
      && c.directory[..|libraries|] == libraries
      && c.directory[|libraries| + 1] == SrcDir
      && IsDir(fs, c.directory)
  {
    var d := c.directory;
    if |d| == |libraries| + 3 && d[..|libraries|] == libraries && IsDir(fs, d) {
      EnumeratedIsDir(fs, listdir, d);
      EnumeratedIsDir(fs, listdir, d[..|libraries| + 1]);
      AncestorsAreDirs(fs, d, |libraries| + 1);
      AncestorsAreDirs(fs, d, |libraries| + 2);
      assert d[..|libraries| + 1] == Child(libraries, d[|libraries|]);
    }
  }

  /** `fs1` and `fs2` agree on which paths at or below `root` are directories. */
  ghost predicate SameDirsUnder(fs1: FileSystem, fs2: FileSystem, root: Path) {
    forall p :: root <= p ==> IsDir(fs1, p) == IsDir(fs2, p)
  }

  lemma {:induction false} ChildrenLocal(fs1: FileSystem, fs2: FileSystem, root: Path, d: Path, names: seq<string>)
    requires SameDirsUnder(fs1, fs2, root) && root <= d
    ensures Children(fs1, d, names) == Children(fs2, d, names)
    decreases |names|
  {
    if |names| > 0 {
      assert root <= Child(d, names[0]);
      ChildrenLocal(fs1, fs2, root, d, names[1..]);
    }
  }

  /** Every path of `dirs` lies at or below `root`. */
  ghost predicate AllUnder(dirs: seq<Path>, root: Path) {
    forall i :: 0 <= i < |dirs| ==> root <= dirs[i]
  }

  lemma SubDirsUnder(fs: FileSystem, listdir: Listing, root: Path, d: Path)
    requires root <= d
    ensures AllUnder(SubDirs(fs, listdir, d), root)
  {
    var r := SubDirs(fs, listdir, d);
    forall i | 0 <= i < |r|
      ensures root <= r[i]
    {
      assert r[i] in r;
      assert r[i][..|d|] == d;
    }
  }

  lemma {:induction false} Level3Local(fs1: FileSystem, fs2: FileSystem, listdir: Listing, root: Path, dirs: seq<Path>)
    requires SameDirsUnder(fs1, fs2, root) && AllUnder(dirs, root)
    ensures PackageLevel3(fs1, listdir, dirs) == PackageLevel3(fs2, listdir, dirs)
    decreases |dirs|
  {
    if |dirs| > 0 {
      ChildrenLocal(fs1, fs2, root, dirs[0], listdir(dirs[0]));
      Level3Local(fs1, fs2, listdir, root, dirs[1..]);
    }
  }

  lemma {:induction false} Level2Local(fs1: FileSystem, fs2: FileSystem, listdir: Listing, root: Path, dirs: seq<Path>)
    requires SameDirsUnder(fs1, fs2, root) && AllUnder(dirs, root)
    ensures PackageLevel2(fs1, listdir, dirs) == PackageLevel2(fs2, listdir, dirs)
    decreases |dirs|
  {
    if |dirs| > 0 {
      ChildrenLocal(fs1, fs2, root, dirs[0], listdir(dirs[0]));
      SubDirsUnder(fs1, listdir, root, dirs[0]);
      Level3Local(fs1, fs2, listdir, root, SubDirs(fs1, listdir, dirs[0]));
      Level2Local(fs1, fs2, listdir, root, dirs[1..]);
    }
  }

  lemma {:induction false} Level1Local(fs1: FileSystem, fs2: FileSystem, listdir: Listing, root: Path, dirs: seq<Path>)
    requires SameDirsUnder(fs1, fs2, root) && AllUnder(dirs, root)
    ensures PackageLevel1(fs1, listdir, dirs) == PackageLevel1(fs2, listdir, dirs)
    decreases |dirs|
  {
    if |dirs| > 0 {
      Level2Local(fs1, fs2, listdir, root, [dirs[0]]);
      Level1Local(fs1, fs2, listdir, root, dirs[1..]);
    }
  }

  lemma {:induction false} LibLevelLocal(fs1: FileSystem, fs2: FileSystem, listdir: Listing, libraries: Path, names: seq<string>)
    requires SameDirsUnder(fs1, fs2, libraries)
    requires forall n :: n in names ==> n in listdir(libraries)
    ensures LibLevel(fs1, listdir, libraries, names) == LibLevel(fs2, listdir, libraries, names)
    decreases |names|
  {
    if |names| > 0 {
      var src := Child(Child(libraries, names[0]), SrcDir);
      assert libraries <= src;
      ChildrenLocal(fs1, fs2, libraries, src, listdir(src));
      LibLevelLocal(fs1, fs2, listdir, libraries, names[1..]);
    }
  }

  /** Both walks read nothing but the directories at or below their root. */
  lemma WalksAreLocal(fs1: FileSystem, fs2: FileSystem, listdir: Listing, root: Path)
    requires SameDirsUnder(fs1, fs2, root)
    ensures PackageCalls(fs1, listdir, root) == PackageCalls(fs2, listdir, root)
    ensures LibCalls(fs1, listdir, root) == LibCalls(fs2, listdir, root)
  {
    assert root <= root;
    if IsDir(fs1, root) {
      ChildrenLocal(fs1, fs2, root, root, listdir(root));
      SubDirsUnder(fs1, listdir, root, root);
      Level1Local(fs1, fs2, listdir, root, SubDirs(fs1, listdir, root));
      LibLevelLocal(fs1, fs2, listdir, root, listdir(root));
    }
  }
}

=== FILE: wrappers.dfy ===
/** Failure-compatible result types shared by the whole model. */
module Wrappers {

  /** A value that may be absent. */
  datatype Option<+T> = None | Some(value: T)

  /** The outcome of an operation that may raise: a value, or the error it raised. */
  datatype Result<+R, +E> = Success(value: R) | Failure(error: E) {

    predicate IsFailure() {
      Failure?
    }

    function PropagateFailure<U>(): Result<U, E>
      requires Failure?
    {
      Failure(error)
    }

    function Extract(): R
      requires Success?
    {
      value
    }
  }
}
